=== FILE: README.md ===
# Company chatbot core in Dafny

This project models the deterministic core of a Django company-information
chatbot. It has three parts.

- **Name resolver** (`agent/tools.py`). `_get_company_by_name` tries three
  tiers in order:
  1. a case-insensitive exact match;
  2. a case-insensitive substring match, taking the name that sorts first;
  3. a fuzzy match over `_clean`-normalised names, keeping the first best
     `difflib` ratio and accepting it only at 0.75 or above.

  If every tier fails it returns the sentinel `"Company not found."`.
- **Answer shaping** (`agent/langgraph_agent.py`). This covers the router's
  `decide_route`, the filler-phrase stripping in `company_tool_node` and the
  three-way mapping of the tool outcome to the reply. It also covers
  `chat_node`'s empty-store reply and the catalog text it hands to the
  language model.
- **API views and records** (`companies/views.py`, `companies/models.py`).
  - `chat` logs one exchange per call and echoes the session id.
  - `chat_history` filters by session and lists the newest twenty.
  - `upload_companies_csv` imports rows as a fold with create-if-absent
    semantics and a per-row error list.
  - The two model classes supply the record types and the store invariants.

## Modules

| file | module | contents |
|---|---|---|
| `wrappers.dfy` | `Wrappers` | `Option` |
| `text.dfy` | `Text` | ASCII case folding, substring search, Python's `str.strip`, code-point ordering of names, decimal rendering and `str.join` |
| `models.dfy` | `Models` | `Company`, `ChatEntry`, the store invariants, and the Python `repr` of the financials dict |
| `tools.dfy` | `Tools` | `_clean`, `_format_company`, the similarity ratio and the three-tier resolver |
| `lookup_properties.dfy` | `LookupProperties` | what the resolver promises, tier by tier |
| `phrases.dfy` | `Phrases` | the case-insensitive, word-bounded regex substitution that strips filler phrases, over any list of alternatives |
| `agent.dfy` | `Agent` | `decide_route`, the chatbot's filler pattern, `company_tool_node`, `chat_node` and `run_chat` |
| `views.dfy` | `Views` | the `chat`, `chat_history` and `upload_companies_csv` views |

### Modelling assumptions

- **Database.** It is taken to be SQLite, Django's default backend.
  - `iexact` and `icontains` compile to `LIKE`, which folds case for ASCII
    letters only.
  - `order_by("name")` compares code points, defined here as `LexLe`.
  - The declared `max_length` of a `CharField` is not enforced on insert.
- **The store.** The company table is a `seq<Company>` in primary-key
  order. `Company.objects.all()` (agent/tools.py:55 and
  agent/langgraph_agent.py:73) has no `ORDER BY`, so the row order is up to
  the database. The fuzzy tier's tie-break (the first best ratio wins) and
  the order of the blocks in the catalog rest on the assumption that SQLite
  scans the table in primary-key order. The chat log is a `seq<ChatEntry>`
  in the order every query lists it: newest first.
- **The filler pattern.** `Phrases` models `re.sub` of an alternation of
  lower-case phrases under `re.IGNORECASE` and `\b`, with the alternatives
  as a parameter. It needs them well-formed: at least two characters, a
  letter at each end, and no two sharing their first two letters.
  `Agent.FillersWellFormed` shows that the chatbot's five phrases are.
- **The `difflib` ratio.** `SequenceMatcher.ratio()` is `2*M/T`, where `T`
  is the total length of the two strings, and it is 1.0 when both are
  empty. The matching count `M` is a function parameter (`Matcher`),
  constrained by `ValidMatcher`: `M <= |a|`, `M <= |b|` and `M(a, a) == |a|`.
  - The ratio is an exact rational.
  - The float comparisons in the source agree with exact ones here, because
    a quotient of small integers is correctly rounded.
  - `Tools.ThresholdIsIntegerTest` shows that the 0.75 test is `8*M >= 3*T`.
- **Outside services are parameters.** They are:
  - the router's classifier and the language model (`Services`);
  - the fresh session id from `uuid4`;
  - the clock reading;
  - the evaluation of a financials cell (`Parser`). It gives the data, or
    `Unencodable` for a value JSON cannot encode (a set, a tuple key), or
    `Raises` where `eval` raises.

## Model

| member | source | states |
|---|---|---|
| Tools.Clean | agent/tools.py:14-16 | The output has only ASCII lower-case letters and digits and is no longer than the input. |
| Tools.CleanFixedPoints | agent/tools.py:14-16 | `_clean` leaves a string unchanged exactly when it already consists only of `[a-z0-9]`. |
| Tools.CleanIdempotent | agent/tools.py:14-16 | Cleaning twice is cleaning once. |
| Tools.CleanAppend | agent/tools.py:14-16 | Cleaning distributes over concatenation. |
| Tools.CleanIgnoresCase | agent/tools.py:14-16 | Strings equal up to case clean to the same string. |
| Tools.CleanAcmeCorp | agent/tools.py:15-16 | "Acme Corp." and "acme corp" clean to the same string, as the docstring promises. |
| Tools.FormatCompany | agent/tools.py:18-24 | A profile starts with the name followed by " — ", so it never equals the not-found sentinel. |
| Tools.ProfileShowsSector | agent/tools.py:18-24 | A profile contains the line "Sector: " followed by the company's sector. |
| Tools.Similarity | agent/tools.py:56 | The ratio is non-negative, is 1 for two empty strings, and otherwise times the total length gives twice the matched count. |
| Tools.ThresholdIsIntegerTest | agent/tools.py:56-60 | A ratio of at least 0.75 is the integer test `8*M >= 3*T`. |
| Tools.SimilarityAtMostOne | agent/tools.py:56 | With a valid matcher the ratio lies between 0 and 1. |
| Tools.SelfSimilarity | agent/tools.py:56 | A string compared with itself has ratio 1. |
| Tools.BestSoFar | agent/tools.py:53-59 | The strict `>` scan from 0.0 picks a position with positive score that is at least every score and greater than every earlier one; no pick means every score is 0. |
| Tools.FilterSingle | agent/tools.py:41 | When exactly one company satisfies the test, the filter yields exactly that company. |
| Tools.FilterTwo | agent/tools.py:41 | When two companies satisfy the test, the filter yields at least two. |
| Tools.MinByName | agent/tools.py:47-49 | The first row of a name-ordered query is a candidate whose name sorts at or before every other candidate's. |
| Tools.ResolveTier | agent/tools.py:30-64 | A found company is in the store. An exact answer equals the query up to case, a substring answer contains it up to case, and a fuzzy answer has similarity at least 0.75. |
| Tools.GetCompanyByName | agent/tools.py:30-64 | The lookup raises exactly when two names equal the query up to case. It returns the sentinel exactly when no tier answers, and otherwise the profile of the company found. |
| LookupProperties.ExactTierWins | agent/tools.py:39-42 | A single case-insensitive exact match is the answer, whatever the later tiers and the matcher would say. |
| LookupProperties.AmbiguousExactRaises | agent/tools.py:40-44 | Two names equal to the query up to case make the lookup raise, because only `DoesNotExist` is caught. |
| LookupProperties.CaseVariantsRaise | companies/models.py:7 | A store that is valid under case-sensitive uniqueness can hold "Acme" and "ACME", and looking up "acme" in it raises. |
| LookupProperties.SubstringTierWins | agent/tools.py:46-49 | With no exact match, a containing name answers. The answer is the containing name that sorts first, and it does not depend on the matcher. |
| LookupProperties.EmptyQueryFindsFirstName | agent/tools.py:39-49 | The empty query on a non-empty store answers with the company whose name sorts first. |
| LookupProperties.FuzzyTierChoice | agent/tools.py:51-64 | Past the first two tiers, the answer is the first company of greatest similarity when that similarity reaches 0.75. Not-found comes back exactly when every similarity is below 0.75. |
| LookupProperties.EmptyStoreNotFound | agent/tools.py:63-64 | On an empty store the tool returns the sentinel. |
| LookupProperties.NormalisedMatchFound | agent/tools.py:52-61 | If the first two tiers miss and the query cleans to the same string as a stored name, the fuzzy tier answers with ratio 1. |
| LookupProperties.AcmeCorpWithTrailingDot | agent/tools.py:30-61 | "Acme Corp." misses the first two tiers against "Acme Corp" and is found by the fuzzy tier. |
| LookupProperties.AcmeCorpAnyCase | agent/tools.py:39-42 | "acme corp" finds "Acme Corp" through the exact tier. |
| Agent.DecideRoute | agent/langgraph_agent.py:147-151 | The label "company_query" leads to "get_company_info"; every other label leads to "chat"; both are graph nodes. |
| Agent.ExtractCompanyName | agent/langgraph_agent.py:122-127 | The extracted name has no leading or trailing whitespace and is no longer than the message. |
| Agent.NoFillerOnlyTrimmed | agent/langgraph_agent.py:122-127 | A message in which no filler phrase occurs at a word boundary is only whitespace-trimmed. |
| Agent.FillersWellFormed | agent/langgraph_agent.py:123 | The five alternatives of the filler pattern are lower-case phrases that begin and end with a letter and differ in their first two letters. |
| Phrases.FirstFillerFound | agent/langgraph_agent.py:123-126 | The alternation is tried left to right: the alternative chosen at a position matches there, case-insensitively and between word boundaries, and no earlier one does. No choice means no alternative matches. |
| Phrases.RemoveFillersFrom | agent/langgraph_agent.py:122-126 | The substitution never makes the text longer. |
| Phrases.NoFillerCopies | agent/langgraph_agent.py:122-126 | Where no filler starts, the substitution copies the text unchanged. |
| Phrases.CopiesUpTo | agent/langgraph_agent.py:122-126 | A stretch in which no filler starts is copied as it is, and the substitution carries on after it. |
| Phrases.NonFillerCopied | agent/langgraph_agent.py:122-126 | A character at which no filler starts is kept. |
| Phrases.FillerDropped | agent/langgraph_agent.py:122-126 | A filler match is replaced by nothing, and scanning resumes right after it. |
| Phrases.FillerSegment | agent/langgraph_agent.py:122-126 | Text up to the first filler match is kept, the match is dropped, and the substitution continues after the match. |
| Phrases.FillersExclusive | agent/langgraph_agent.py:123 | No two alternatives of a well-formed alternation match at the same position. |
| Phrases.LeadingPhraseRemoved | agent/langgraph_agent.py:122-126 | A leading match followed by a space, with no match after it, leaves exactly the rest of the text. |
| Phrases.TwoPhrasesRemoved | agent/langgraph_agent.py:122-126 | Two space-separated leading matches, with no match after them, are dropped and both spaces stay. |
| Phrases.TwoWordsRemoved | agent/langgraph_agent.py:122-126 | Two phrase words, spaces and a name become two spaces followed by the name. |
| Agent.LeadingFillerStripped | agent/langgraph_agent.py:122-127 | A filler phrase in any case, a space and a name give back exactly the name, e.g. "Tell me about Acme Corp" gives "Acme Corp". |
| Agent.TwoLeadingFillersStripped | agent/langgraph_agent.py:122-127 | Two filler phrases in any case, each followed by a space, and then a name give back exactly the name. |
| Agent.TwoFillersStripped | agent/langgraph_agent.py:122-127 | "What is the company Acme" gives "Acme". |
| Agent.ErrorAnswer | agent/langgraph_agent.py:133-135 | The error reply quotes the name after "Error looking up '" and ends with "'."; the name reads back from between the quotes. |
| Agent.SorryAnswer | agent/langgraph_agent.py:137-138 | The apology quotes the name after "Sorry, I couldn't find any information for '" and ends with "'."; the name reads back. |
| Agent.FoundAnswer | agent/langgraph_agent.py:140-142 | The found reply is "Here’s what we know about ", the name, ":" and a line break, then the profile verbatim; the name and the profile read back. |
| Agent.ToolAnswer | agent/langgraph_agent.py:130-144 | The reply is the error text exactly when the tool raises, the apology exactly when it returns the sentinel, and otherwise the profile after "Here’s what we know about <name>:". |
| Agent.AnswersDistinct | agent/langgraph_agent.py:133-144 | The error reply, the apology and the profile reply are pairwise different. |
| Agent.CompanyToolNode | agent/langgraph_agent.py:117-144 | The reply is "Error looking up" exactly when the lookup raises, and the apology exactly when nothing is found. Otherwise it is "Here’s what we know about <name>:" followed by the profile, verbatim. |
| Agent.CompanyBlock | agent/langgraph_agent.py:82-85 | A company's block starts with "Company: " and its name, shows the "Description: " and "Sector: " lines, and ends with the financials line. |
| Agent.Catalog | agent/langgraph_agent.py:81-87 | Every company's block occurs in the catalog, and a single company's catalog is its block alone. |
| Agent.CatalogSnoc | agent/langgraph_agent.py:81-87 | Blocks follow store order, separated by a blank line: one more company adds "\n\n" and its block at the end. |
| Agent.CatalogLength | agent/langgraph_agent.py:81-87 | The catalog is exactly the blocks plus one two-character separator between neighbours. |
| Agent.ChatNode | agent/langgraph_agent.py:63-115 | With no companies the reply is the fixed text; otherwise it is the model's reply given the catalog and the message. |
| Agent.EmptyStoreSkipsModel | agent/langgraph_agent.py:75-78 | With no companies the reply is "No companies are currently in the database." whatever the model. |
| Agent.RunChat | agent/langgraph_agent.py:153-172 | A "company_query" label runs the company tool node on the message, and any other label runs the chat node. |
| Agent.RouteDecidesDependencies | agent/langgraph_agent.py:117-151 | A company-route turn does not depend on the language model, and any other turn does not depend on the matcher. |
| Agent.EmptyStoreTurn | agent/langgraph_agent.py:75-78 | On an empty store every turn gets the fixed reply or the apology. |
| Agent.AskingAboutStoredCompany | agent/langgraph_agent.py:122-144 | Asking about a stored name after a filler phrase answers with that company's profile. |
| Views.InsertNewestFirst | companies/views.py:57-61 | Logging adds exactly one entry and keeps every earlier one. |
| Views.InsertKeepsNewestFirst | companies/models.py:21-22 | The log stays listed newest-first after an insertion. |
| Views.SessionOf | companies/views.py:51 | Any supplied value is kept as it is, JSON null included, and only a missing key takes the fresh uuid. |
| Views.ChatView | companies/views.py:49-66 | The returned answer is `run_chat` of the message. Exactly one entry is logged, holding the returned answer and the column form of the session id: null stays null and any other value is stored as its `str()` text. The supplied value is echoed unchanged, and a missing one is the fresh id. |
| Views.NonStringIdLoggedAsText | companies/models.py:19 | A number, boolean, array or object session id is logged as its `str()` text but echoed as the value, not as that text. |
| Views.FreshIdOnlyWhenAbsent | companies/views.py:51 | The generated id matters only when the request has no `session_id` key. |
| Views.NewestExchangeFirst | companies/models.py:18-22 | With a clock that does not run backwards, the new exchange heads the listing. |
| Views.ChatKeepsSessionBounds | companies/models.py:19 | Session ids stay within 100 characters when the supplied ids do, since a generated id has 36. |
| Views.SessionTest | companies/views.py:118-123 | With no or an empty `session_id` parameter every entry is listed; otherwise exactly the entries of that session. |
| Views.FilterNewestFirst | companies/views.py:121 | Filtering by session keeps the newest-first order. |
| Views.ChatHistoryView | companies/views.py:116-123 | The listing is the first twenty matching entries of the log in listing order, or all of them when fewer match: all are from the given session when one is given, none occurs more often than in the log, and the listing is newest-first. |
| Views.HistoryIsNewest | companies/views.py:118-123 | A matching exchange is left out only when 20 are listed, and then it is no newer than any listed one. |
| Views.RowFinancials | companies/views.py:99 | A missing or empty financials cell gives the empty object; a non-empty one gives its evaluation. |
| Views.ImportRow | companies/views.py:94-101 | A missing name cell or an unparsable financials cell is a row error. Otherwise the row is skipped exactly when a company has its whitespace-stripped name, whatever its other cells. For a new name, financials JSON cannot encode are a `NotJson` row error. Otherwise the new name creates a company built from its cells exactly when the description and sector cells are present, and a `None` description or sector cell is a `CreateFailed` row error. |
| Views.FinancialsCheckedFirst | companies/views.py:94-100 | An unparsable financials cell is a row error even when the name already exists. |
| Views.UnencodableFailsOnlyOnInsert | companies/views.py:94-101 | A financials cell that evaluates to data JSON cannot encode is ignored for a stored name and is a `NotJson` row error for a new one. |
| Views.Step | companies/views.py:91-105 | One row: a creation appends the company and adds one to the count, a failure appends one error, and nothing else changes. |
| Views.ImportRows | companies/views.py:88-105 | Starting from a zero count and no errors, the loop only appends companies, counts exactly the ones appended, records at most one outcome per row and keeps names unique. |
| Views.ImportFrom | companies/views.py:88-105 | The loop only appends companies, and the counter grows by exactly the number appended. Each row adds at most one creation or one error, and names stay unique. |
| Views.ImportConcat | companies/views.py:91-105 | Importing two batches in turn is importing their concatenation. |
| Views.ErrorsOnlyCarried | companies/views.py:89-105 | Errors already collected never influence later rows. |
| Views.FailingRowDoesNotAbort | companies/views.py:104-105 | A failing row is recorded, and the rest of the rows are imported exactly as if it were absent. |
| Views.SettledPersists | companies/views.py:94-103 | A row that would not create a company still would not after more companies are added. |
| Views.AllRowsSettled | companies/views.py:91-103 | After an import, no row of the file would create anything. |
| Views.ReimportCreatesNothing | companies/views.py:91-103 | Importing the same file twice creates nothing the second time and leaves the store unchanged. |
| Views.WellFormedImportCount | companies/views.py:91-103 | A well-formed file reports no errors and creates one company per name not stored before, however often the name repeats. |
| Views.ImportKeepsBounds | companies/models.py:7-9 | The name and sector bounds hold after an import if they held before and every row respects them. |
| Views.UploadCompaniesCsv | companies/views.py:70-113 | A missing file or a non-".csv" name answers 400 with the store unchanged. A ".csv" file runs the import loop over its rows, and its companies stay even when reading fails later. A read error answers 400 with "Error processing CSV: " and the reason; otherwise the answer reports the number added and the row errors, null when there are none. |
| Views.ImportCsv | companies/views.py:83-113 | The rows read are imported and kept even when reading then fails. A read error answers 400 with "Error processing CSV: " and the reason; otherwise the answer reports the number added and the row errors, null when there are none. |
| Views.ImportedMessage | companies/views.py:108 | The success message is "Successfully imported ", decimal digits and " companies"; the digits read back as the count. |
| Views.ImportedCountReadsBack | companies/views.py:108 | The count in the success message is decimal digits that read back as the number of companies added. |
| Models.UniqueNamesCount | companies/models.py:7 | With unique names there are as many distinct names as companies. |
| Models.ReprFinancials | agent/tools.py:23 | `str()` of the financials dict is wrapped in braces, the default empty object renders as "{}", and every key-value pair appears as `repr(key): repr(value)`. |
| Models.ReprFinancialsSingle | agent/langgraph_agent.py:85 | A one-key dict renders as its single `repr(key): repr(value)` entry between braces. |
| Models.ReprFinancialsSnoc | agent/tools.py:23 | Each further key adds ", " and its entry just before the closing brace, so the entries appear in the dict's order. |
| Models.ReprStr | agent/tools.py:23 | `repr` of a string is quoted at both ends with the same quote, and text without quotes, backslashes or escaped characters appears unchanged between single quotes. |
| Text.Strip | companies/views.py:95 | `str.strip`: the result is a slice of the input with only whitespace outside it and none at its ends. |
| Text.StripIdempotent | agent/langgraph_agent.py:127 | Stripping twice is stripping once. |
| Text.CaseEqByCharacter | agent/tools.py:41 | `iexact` compares the two strings position by position after folding ASCII upper-case letters, so equal-up-to-case strings have the same length. |
| Text.CaseContainsWindow | agent/tools.py:47 | `icontains` holds exactly when some window of the name equals the query up to case. |
| Text.LexLeTotal | agent/tools.py:47 | The name ordering compares any two names. |
| Text.LexLeTrans | agent/tools.py:47 | The name ordering is transitive. |
| Text.LexLeAntisym | agent/tools.py:47 | Two names ordered both ways are equal. |
| Text.IntToString | agent/tools.py:23 | `str()` of an integer is non-empty decimal digits, after a "-" for a negative one, that read back as the integer. |
| Text.NatToStringRoundTrip | companies/views.py:108 | A count rendered in decimal reads back as the same count. |
| Text.JoinContainsPart | agent/langgraph_agent.py:81 | Every part occurs in the joined text. |
| Text.JoinLength | agent/langgraph_agent.py:81 | The joined text has the parts' total length plus one separator between neighbours. |

## Left out

- Routing by the language model is left out. This covers the router chain, its prompt and schema, `route_message`, and the model call in `chat_node`. The route label and the model's reply are function parameters.
- The prompt text that surrounds the catalog is not modelled: only the catalog string passed to the model is.
- The graph construction and the LangGraph runtime are left out. `RunChat` dispatches through `DecideRoute` directly, which is what the compiled graph does.
- `difflib.SequenceMatcher` internals are not modelled. The matching count is a parameter bounded as stated above, and its `autojunk` heuristic is inside that parameter.
- Unicode case folding is not modelled. `LIKE` folds ASCII only under SQLite, and `re.IGNORECASE` with `\w` and `\b` is taken over ASCII letters, digits and `_`. Non-ASCII letters in a message therefore count as non-word characters here.
- Tools.Clean: lowers ASCII only, while `_clean` calls Python's full Unicode `str.lower()` (agent/tools.py:16) before dropping everything outside `[a-z0-9]`. Some non-ASCII letters lower to ASCII ones: U+212A (Kelvin sign) becomes "k" and U+0130 becomes "i" followed by a combining dot. Python keeps that ASCII letter, and `Tools.Clean` drops the character.
- Phrases.RemoveFillersFrom: its own ensures is only the length bound. What it keeps and what it drops is stated by `Phrases.FirstFillerFound`, `Phrases.CopiesUpTo`, `Phrases.FillerDropped` and `Phrases.FillerSegment`.
- Models.ReprFinancials: covers flat objects of integers, strings, booleans and null. Nested lists and objects, floats, and the printability rules of `repr` for characters beyond Latin-1 are not modelled.
- Views.ImportRow: `eval` is an abstract parser, which may raise or give a value JSON cannot encode. A cell that evaluates to an encodable value other than a dict, such as a list or a number, is stored by the source as that value and is not modelled.
- Views.ImportRow: when a new row has both unencodable financials and a `None` description or sector, the row fails as `NotJson`. The field values are prepared, JSON encoding included, before the insert reaches the database's NOT NULL check.
- Views.UploadCompaniesCsv: the error text `Row {row}: {str(e)}` is kept as the row plus a failure kind, not as Python's message text. The response's `errors` list holds `RowError` values.
- Views.UploadCompaniesCsv: UTF-8 decoding and CSV parsing are inputs. The upload arrives as the rows read so far plus the error that stopped reading, if any. Extra cells beyond the header, which `DictReader` files under the key `None`, are not modelled.
- Views.ChatView: a session id that is neither a string nor null (`JsonOther`) is represented by its `str()` text. The model keeps it distinct from a string, but does not hold the JSON value's structure.
- Views.ChatView: the message is a string or absent. A JSON `null` or non-string message, which would reach `run_chat` as a non-string, is not modelled.
- Views.ChatView: a clock reading tied with an existing entry is placed before the older entries of equal time. The database leaves the order among equal timestamps unspecified.
- `uuid4` generation and the clock are parameters (`freshId`, `now`).
- Views.ImportKeepsBounds: the length bounds are stated as preserved when the rows respect them, because SQLite does not enforce `max_length` on insert.
- The resolver is read-only and deterministic by construction: every member is a pure function of the store and the query.
- HTML views, the `CompanyViewSet` CRUD endpoints, URL routing, the admin, the serializers, `make_llm` and the debug prints are left out. They are framework configuration with no logic of their own.

=== FILE: agent.dfy ===
/**
 * The answer shaping of agent/langgraph_agent.py around the hosted model:
 * the router's dispatch, the company-tool node (filler stripping, lookup and
 * the three-way mapping of its outcome to text) and the general chat node
 * (empty-store reply and catalog text). The route label and the model's reply
 * are inputs: the classifier, the model and the similarity matcher are
 * passed in as functions.
 */
module Agent {
  import opened Text
  import opened Models
  import opened Tools
  import opened Phrases
  import opened LookupProperties

  // ---------------------------------------------------------------------------
  // decide_route
  // ---------------------------------------------------------------------------

  const CompanyRoute: string := "company_query"
  const CompanyNode: string := "get_company_info"
  const ChatNodeName: string := "chat"

  /** The `path_map` of the router's conditional edge. */
  const PathMap: map<string, string> := map[CompanyNode := CompanyNode, ChatNodeName := ChatNodeName]

  /** The node the router's label leads to: the company tool for "company_query", chat for any other label. */
  function DecideRoute(route: string): (node: string)
    ensures node in PathMap && PathMap[node] == node
    ensures node == CompanyNode <==> route == CompanyRoute
    ensures node == ChatNodeName <==> route != CompanyRoute
  {
    if route == CompanyRoute then CompanyNode else ChatNodeName
  }

  // ---------------------------------------------------------------------------
  // Filler stripping in company_tool_node
  // ---------------------------------------------------------------------------

  /** The alternatives of the filler pattern, in the order the regex tries them. */
  const Fillers: seq<string> := ["what is", "about", "tell me about", "information on", "the company"]

  /** The pattern of the chatbot has that shape. */
  lemma FillersWellFormed()
    ensures WellFormedAlternatives(Fillers) && NonEmptyAlternatives(Fillers)
  {
    assert Fillers[0][..2] == "wh";
    assert Fillers[1][..2] == "ab";
    assert Fillers[2][..2] == "te";
    assert Fillers[3][..2] == "in";
    assert Fillers[4][..2] == "th";
  }

  /** The substitution with the chatbot's pattern: every filler phrase replaced by nothing. */
  function RemoveFillers(text: string): (r: string)
    ensures |r| <= |text|
  {
    FillersWellFormed();
    RemoveFillersFrom(Fillers, text, 0)
  }

  /** The company name is what is left of the message once the fillers are removed and the ends trimmed. */
  function ExtractCompanyName(text: string): (r: string)
    ensures NoOuterSpace(r)
    ensures |r| <= |text|
  {
    Strip(RemoveFillers(text))
  }

  /** A message with no filler phrase is only whitespace-trimmed. */
  lemma NoFillerOnlyTrimmed(text: string)
    requires forall j :: 0 <= j < |text| ==> !FillerAt(Fillers, text, j)
    ensures ExtractCompanyName(text) == Strip(text)
  {
    FillersWellFormed();
    NoFillerCopies(Fillers, text, 0);
  }

  /**
   * A message made of a filler phrase (in any case), a space and a name gives
   * back exactly the name, provided no filler starts after the phrase and the
   * name has no outer whitespace: "Tell me about Acme Corp" gives "Acme Corp".
   */
  lemma LeadingFillerStripped(v: string, name: string, k: nat)
    requires k < |Fillers| && Lower(v) == Fillers[k]
    requires NoOuterSpace(name)
    requires forall j :: |v| <= j < |v + " " + name| ==> !FillerAt(Fillers, v + " " + name, j)
    ensures ExtractCompanyName(v + " " + name) == name
  {
    var s := v + " " + name;
    FillersWellFormed();
    assert s[0..|v|] == v && s[|v|..] == " " + name;
    LeadingPhraseRemoved(Fillers, s, k);
    StripLeadingSpace(" ", name);
  }

  /**
   * Two filler phrases in a row, each followed by a space, are both removed:
   * "What is the company Acme" gives "Acme".
   */
  lemma TwoLeadingFillersStripped(v: string, w: string, name: string, j: nat, k: nat)
    requires j < |Fillers| && Lower(v) == Fillers[j]
    requires k < |Fillers| && Lower(w) == Fillers[k]
    requires NoOuterSpace(name)
    requires var s := v + " " + w + " " + name;
             forall t :: |v| + 1 + |w| <= t < |s| ==> !FillerAt(Fillers, s, t)
    ensures ExtractCompanyName(v + " " + w + " " + name) == name
  {
    TwoLeadingFillersRemoved(v, w, name, j, k);
    StripLeadingSpace("  ", name);
  }

  lemma TwoLeadingFillersRemoved(v: string, w: string, name: string, j: nat, k: nat)
    requires j < |Fillers| && Lower(v) == Fillers[j]
    requires k < |Fillers| && Lower(w) == Fillers[k]
    requires var s := v + " " + w + " " + name;
             forall t :: |v| + 1 + |w| <= t < |s| ==> !FillerAt(Fillers, s, t)
    ensures RemoveFillers(v + " " + w + " " + name) == "  " + name
  {
    FillersWellFormed();
    TwoWordsRemoved(Fillers, v, w, name, j, k);
  }

  /** The two-filler case on a concrete message: "What is the company Acme" gives "Acme". */
  lemma TwoFillersStripped(s: string)
    requires s == "What is the company Acme"
    ensures ExtractCompanyName(s) == "Acme"
  {
    WhatIsLowers();
    TheCompanyLowers();
    assert s == "What is" + " " + "the company" + " " + "Acme";
    NoFillerAfterFillers(s);
    TwoLeadingFillersStripped("What is", "the company", "Acme", 0, 4);
  }

  lemma WhatIsLowers()
    ensures Lower("What is") == Fillers[0]
  {
    assert Lower("What is") == "what is";
  }

  lemma TheCompanyLowers()
    ensures Lower("the company") == Fillers[4]
  {
    assert Lower("the company") == "the company";
  }

  lemma NoFillerAfterFillers(s: string)
    requires s == "What is the company Acme"
    ensures forall t :: 19 <= t < |s| ==> !FillerAt(Fillers, s, t)
  {
    FillersWellFormed();
    NoFillerStartsAt(Fillers, s, 19);
    NoFillerStartsAt(Fillers, s, 20);
    NoFillerStartsAt(Fillers, s, 21);
    NoFillerStartsAt(Fillers, s, 22);
    NoFillerStartsAt(Fillers, s, 23);
  }

  // ---------------------------------------------------------------------------
  // company_tool_node: mapping the tool's outcome to text
  // ---------------------------------------------------------------------------

  const ErrorPrefix: string := "Error looking up '"
  const SorryPrefix: string := "Sorry, I couldn't find any information for '"
  const FoundPrefix: string := "Here\U{2019}s what we know about "

  /** The reply when the lookup raises: the name, quoted after the error prefix, reads back. */
  function ErrorAnswer(name: string): (r: string)
    ensures |r| == |ErrorPrefix| + |name| + 2
    ensures r[..|ErrorPrefix|] == ErrorPrefix && r[|ErrorPrefix|..|r| - 2] == name && r[|r| - 2..] == "'."
  {
    var r := ErrorPrefix + name + "'.";
    assert r[|ErrorPrefix|..|r| - 2] == name;
    r
  }

  /** The reply when nothing is found: the name, quoted after the apology, reads back. */
  function SorryAnswer(name: string): (r: string)
    ensures |r| == |SorryPrefix| + |name| + 2
    ensures r[..|SorryPrefix|] == SorryPrefix && r[|SorryPrefix|..|r| - 2] == name && r[|r| - 2..] == "'."
  {
    var r := SorryPrefix + name + "'.";
    assert r[|SorryPrefix|..|r| - 2] == name;
    r
  }

  /** The reply for a found company: the name and then, after ":" and a line break, the profile, both reading back. */
  function FoundAnswer(name: string, profile: string): (r: string)
    ensures var n := |FoundPrefix| + |name|;
            && |r| == n + 2 + |profile|
            && r[..|FoundPrefix|] == FoundPrefix && r[|FoundPrefix|..n] == name
            && r[n..n + 2] == ":\n" && r[n + 2..] == profile
  {
    var r := FoundPrefix + name + ":\n" + profile;
    var n := |FoundPrefix| + |name|;
    assert r[|FoundPrefix|..n] == name;
    assert r[n + 2..] == profile;
    r
  }

  /** The three kinds of answer can be told apart by their first character. */
  lemma AnswersDistinct(name: string, profile: string)
    ensures ErrorAnswer(name) != SorryAnswer(name)
    ensures !IsPrefix(FoundPrefix, ErrorAnswer(name)) && !IsPrefix(FoundPrefix, SorryAnswer(name))
    ensures IsPrefix(FoundPrefix, FoundAnswer(name, profile))
  {
    assert ErrorPrefix[0] == 'E' && SorryPrefix[0] == 'S' && FoundPrefix[0] == 'H';
    assert ErrorAnswer(name)[0] == ErrorPrefix[0];
    assert SorryAnswer(name)[0] == SorryPrefix[0];
  }

  /** An exception becomes the error text, the sentinel the apology, anything else is shown verbatim. */
  function ToolAnswer(name: string, result: ToolResult): (r: string)
    ensures result.Raised? <==> r == ErrorAnswer(name)
    ensures result == Returned(NotFound) <==> r == SorryAnswer(name)
    ensures result.Returned? && result.text != NotFound ==> r == FoundAnswer(name, result.text)
  {
    AnswersDistinct(name, if result.Returned? then result.text else "");
    match result
    case Raised => ErrorAnswer(name)
    case Returned(text) => if text == NotFound then SorryAnswer(name) else FoundAnswer(name, text)
  }

  /**
   * `company_tool_node`: strip the fillers, look the name up and say what
   * happened. Each resolver outcome has its own, distinguishable answer.
   */
  function CompanyToolNode(input: string, store: Store, m: Matcher): (out: string)
    ensures var name := ExtractCompanyName(input);
            var r := ResolveTier(store, name, m);
            && (r.Ambiguous? <==> out == ErrorAnswer(name))
            && (r.NoMatch? <==> out == SorryAnswer(name))
            && (r.Exact? || r.Substring? || r.Fuzzy? <==> IsPrefix(FoundPrefix, out))
            && (r.Exact? || r.Substring? || r.Fuzzy? ==> out == FoundAnswer(name, FormatCompany(r.company)))
  {
    var name := ExtractCompanyName(input);
    var result := GetCompanyByName(store, name, m);
    var r := ResolveTier(store, name, m);
    AnswersDistinct(name, if r.Exact? || r.Substring? || r.Fuzzy? then FormatCompany(r.company) else "");
    ToolAnswer(name, result)
  }

  // ---------------------------------------------------------------------------
  // chat_node
  // ---------------------------------------------------------------------------

  /** The hosted model: given the catalog it is shown and the user's message, its reply. */
  type Llm = (string, string) -> string

  const NoCompaniesAnswer: string := "No companies are currently in the database."

  /** One company in the catalog: its name first, then a line per field, the financials last. */
  function CompanyBlock(c: Company): (r: string)
    ensures IsPrefix("Company: " + c.name, r)
    ensures Contains(r, "\nDescription: " + c.description)
    ensures Contains(r, "\nSector: " + c.sector)
    ensures EndsWith(r, "\nFinancials: " + ReprFinancials(c.financials))
  {
    var name, description := "Company: " + c.name, "\nDescription: " + c.description;
    var sector, financials := "\nSector: " + c.sector, "\nFinancials: " + ReprFinancials(c.financials);
    FourParts(name, description, sector, financials);
    name + description + sector + financials
  }

  function Blocks(store: Store): (r: seq<string>)
    ensures |r| == |store|
    ensures forall i :: 0 <= i < |store| ==> r[i] == CompanyBlock(store[i])
  {
    seq(|store|, i requires 0 <= i < |store| => CompanyBlock(store[i]))
  }

  /** The catalog text handed to the model: one block per company, in store order, blank-line separated. */
  function Catalog(store: Store): (r: string)
    ensures |store| == 1 ==> r == CompanyBlock(store[0])
    ensures forall i :: 0 <= i < |store| ==> Contains(r, CompanyBlock(store[i]))
  {
    var r := Join("\n\n", Blocks(store));
    assert forall i :: 0 <= i < |store| ==> Contains(r, CompanyBlock(store[i])) by {
      forall i | 0 <= i < |store|
        ensures Contains(r, CompanyBlock(store[i]))
      {
        JoinContainsPart("\n\n", Blocks(store), i);
      }
    }
    r
  }

  /** Adding a company adds a blank line and its block at the end. */
  lemma CatalogSnoc(store: Store, c: Company)
    requires |store| > 0
    ensures Catalog(store + [c]) == Catalog(store) + "\n\n" + CompanyBlock(c)
  {
    assert Blocks(store + [c]) == Blocks(store) + [CompanyBlock(c)];
    JoinSnoc("\n\n", Blocks(store), CompanyBlock(c));
  }

  /** The catalog is exactly the blocks plus one two-character separator between neighbours. */
  lemma CatalogLength(store: Store)
    requires |store| > 0
    ensures |Catalog(store)| == TotalLength(Blocks(store)) + 2 * (|store| - 1)
  {
    JoinLength("\n\n", Blocks(store));
  }

  /** `chat_node`: a fixed reply on an empty store, otherwise the model's reply given the catalog. */
  function ChatNode(store: Store, input: string, llm: Llm): (r: string)
    ensures |store| == 0 ==> r == NoCompaniesAnswer
    ensures |store| > 0 ==> r == llm(Catalog(store), input)
  {
    if |store| == 0 then NoCompaniesAnswer else llm(Catalog(store), input)
  }

  /** With no companies the reply is fixed and no model is consulted: any two models give the same answer. */
  lemma EmptyStoreSkipsModel(input: string, llm: Llm, llm': Llm)
    ensures ChatNode([], input, llm) == ChatNode([], input, llm') == NoCompaniesAnswer
  {
  }

  // ---------------------------------------------------------------------------
  // The graph: router -> {chat, get_company_info} -> END
  // ---------------------------------------------------------------------------

  /** The external services a turn depends on. */
  datatype Services = Services(classify: string -> string, llm: Llm, matcher: Matcher)

  /** `run_chat`: classify, dispatch through `decide_route`, return the node's output. */
  function RunChat(message: string, store: Store, services: Services): (r: string)
    ensures services.classify(message) == CompanyRoute ==> r == CompanyToolNode(message, store, services.matcher)
    ensures services.classify(message) != CompanyRoute ==> r == ChatNode(store, message, services.llm)
  {
    if DecideRoute(services.classify(message)) == CompanyNode then CompanyToolNode(message, store, services.matcher)
    else ChatNode(store, message, services.llm)
  }

  /**
   * A company-route turn is answered from the store alone (the model is never
   * consulted), and any other turn never consults the matcher.
   */
  lemma RouteDecidesDependencies(message: string, store: Store, services: Services, llm': Llm, m': Matcher)
    ensures services.classify(message) == CompanyRoute ==>
              RunChat(message, store, services) == RunChat(message, store, services.(llm := llm'))
              == CompanyToolNode(message, store, services.matcher)
    ensures services.classify(message) != CompanyRoute ==>
              RunChat(message, store, services) == RunChat(message, store, services.(matcher := m'))
              == ChatNode(store, message, services.llm)
  {
  }

  /** On an empty store every turn gets a graceful answer: the fixed reply or the apology. */
  lemma EmptyStoreTurn(message: string, services: Services)
    ensures var out := RunChat(message, [], services);
            out == NoCompaniesAnswer || out == SorryAnswer(ExtractCompanyName(message))
  {
    var name := ExtractCompanyName(message);
    if services.classify(message) == CompanyRoute {
      EmptyStoreNotFound(name, services.matcher);
      assert ResolveTier([], name, services.matcher).NoMatch?;
    }
  }

  /**
   * Asking about a stored company by its exact name (any case) after a
   * filler phrase answers with that company's profile.
   */
  lemma AskingAboutStoredCompany(v: string, k: nat, store: Store, m: Matcher, i: nat)
    requires k < |Fillers| && Lower(v) == Fillers[k]
    requires i < |store| && NoOuterSpace(store[i].name)
    requires forall j :: |v| <= j < |v + " " + store[i].name| ==> !FillerAt(Fillers, v + " " + store[i].name, j)
    requires forall j :: 0 <= j < |store| && j != i ==> !CaseEq(store[j].name, store[i].name)
    ensures CompanyToolNode(v + " " + store[i].name, store, m)
            == FoundAnswer(store[i].name, FormatCompany(store[i]))
  {
    var name := store[i].name;
    LeadingFillerStripped(v, name, k);
    FilterSingle(store, ExactTest(name), i);
  }
}

=== FILE: lookup_properties.dfy ===
/**
 * What the three-tier resolver of agent/tools.py promises: which tier
 * answers, which company it picks, and when the not-found sentinel comes back.
 */
module LookupProperties {
  import opened Wrappers
  import opened Text
  import opened Models
  import opened Tools

  predicate NoExactMatch(store: Store, query: string)
  {
    forall j :: 0 <= j < |store| ==> !CaseEq(store[j].name, query)
  }

  predicate NoSubstringMatch(store: Store, query: string)
  {
    forall j :: 0 <= j < |store| ==> !CaseContains(store[j].name, query)
  }

  lemma ContainsNeedsRoom(s: string, p: string)
    requires Contains(s, p)
    ensures |p| <= |s|
  {
  }

  // ---------------------------------------------------------------------------
  // Tier 1
  // ---------------------------------------------------------------------------

  /**
   * A single case-insensitive exact match is the answer, whatever the later
   * tiers (and the matcher) would say.
   */
  lemma ExactTierWins(store: Store, query: string, m: Matcher, i: nat)
    requires i < |store| && CaseEq(store[i].name, query)
    requires forall j :: 0 <= j < |store| && j != i ==> !CaseEq(store[j].name, query)
    ensures ResolveTier(store, query, m) == Exact(store[i])
    ensures GetCompanyByName(store, query, m) == Returned(FormatCompany(store[i]))
  {
    FilterSingle(store, ExactTest(query), i);
  }

  /** Two names equal to the query up to case make the lookup raise instead of answer. */
  lemma AmbiguousExactRaises(store: Store, query: string, m: Matcher, i: nat, j: nat)
    requires i < j < |store|
    requires CaseEq(store[i].name, query) && CaseEq(store[j].name, query)
    ensures ResolveTier(store, query, m) == Ambiguous
    ensures GetCompanyByName(store, query, m) == Raised
  {
    FilterTwo(store, ExactTest(query), i, j);
  }

  /**
   * The name column is unique only case-sensitively, so a valid store can
   * hold "Acme" and "ACME", and looking up "acme" in it raises.
   */
  lemma CaseVariantsRaise(m: Matcher)
    ensures var store := [Company("Acme", "", "", NoFinancials), Company("ACME", "", "", NoFinancials)];
            UniqueNames(store) && GetCompanyByName(store, "acme", m) == Raised
  {
    var store := [Company("Acme", "", "", NoFinancials), Company("ACME", "", "", NoFinancials)];
    assert Lower("Acme") == "acme";
    assert Lower("ACME") == "acme";
    assert Lower("acme") == "acme";
    AmbiguousExactRaises(store, "acme", m, 0, 1);
  }

  // ---------------------------------------------------------------------------
  // Tier 2
  // ---------------------------------------------------------------------------

  /**
   * With no exact match, a name containing the query up to case decides the
   * answer: the containing name that sorts first, independent of the matcher.
   */
  lemma SubstringTierWins(store: Store, query: string, m: Matcher, m': Matcher, i: nat)
    requires NoExactMatch(store, query)
    requires i < |store| && CaseContains(store[i].name, query)
    ensures var r := ResolveTier(store, query, m);
            && r.Substring?
            && r.company in store
            && CaseContains(r.company.name, query)
            && (forall j :: 0 <= j < |store| && CaseContains(store[j].name, query) ==> LexLe(r.company.name, store[j].name))
            && ResolveTier(store, query, m') == r
  {
    FilterNone(store, ExactTest(query));
    var partial := Filter(store, SubstringTest(query));
    assert store[i] in partial;
    forall j | 0 <= j < |store| && CaseContains(store[j].name, query)
      ensures LexLe(MinByName(partial).name, store[j].name)
    {
      assert SubstringTest(query)(store[j]);
      assert store[j] in partial;
    }
  }

  /**
   * The empty query on a non-empty store answers with the company whose
   * name sorts first: through tier 1 if that name is empty, else tier 2.
   */
  lemma EmptyQueryFindsFirstName(store: Store, m: Matcher)
    requires UniqueNames(store) && |store| > 0
    ensures var r := ResolveTier(store, "", m);
            && (r.Exact? || r.Substring?)
            && r.company in store
            && forall j :: 0 <= j < |store| ==> LexLe(r.company.name, store[j].name)
  {
    assert Lower("") == "";
    if i :| 0 <= i < |store| && store[i].name == "" {
      forall j | 0 <= j < |store| && j != i
        ensures !CaseEq(store[j].name, "")
      {
        assert store[j].name != "";
      }
      ExactTierWins(store, "", m, i);
    } else {
      forall j | 0 <= j < |store|
        ensures !CaseEq(store[j].name, "") && CaseContains(store[j].name, "")
      {
        assert |Lower(store[j].name)| == |store[j].name| > 0;
        ContainsEmpty(Lower(store[j].name));
      }
      SubstringTierWins(store, "", m, m, 0);
    }
  }

  // ---------------------------------------------------------------------------
  // Tier 3
  // ---------------------------------------------------------------------------

  /**
   * Past the first two tiers, the answer is the first company of greatest
   * similarity if that similarity reaches the threshold, and not-found
   * exactly when every similarity stays below it.
   */
  lemma FuzzyTierChoice(store: Store, query: string, m: Matcher)
    requires NoExactMatch(store, query) && NoSubstringMatch(store, query)
    ensures ResolveTier(store, query, m).Fuzzy? || ResolveTier(store, query, m).NoMatch?
    ensures ResolveTier(store, query, m).NoMatch? <==> BelowThreshold(store, Clean(query), m)
    ensures ResolveTier(store, query, m).Fuzzy? ==>
              exists k :: && 0 <= k < |store|
                          && ResolveTier(store, query, m).company == store[k]
                          && FirstBest(store, Clean(query), m, k)
                          && Score(store, Clean(query), m, k) >= Threshold
  {
    FilterNone(store, ExactTest(query));
    FilterNone(store, SubstringTest(query));
    var t := Clean(query);
    var r := ResolveTier(store, query, m);
    match BestSoFar(store, t, m, |store|)
    case None =>
      assert r == NoMatch;
      forall k | 0 <= k < |store|
        ensures Score(store, t, m, k) < Threshold
      {
        assert Score(store, t, m, k) <= 0.0;
      }
    case Some(b) =>
      if Score(store, t, m, b) >= Threshold {
        assert r == Fuzzy(store[b]);
        assert FirstBest(store, t, m, b);
        assert !BelowThreshold(store, t, m);
      } else {
        assert r == NoMatch;
        forall k | 0 <= k < |store|
          ensures Score(store, t, m, k) < Threshold
        {
          assert Score(store, t, m, k) <= Score(store, t, m, b);
        }
      }
  }

  /** Every company's similarity to the cleaned query is below the threshold. */
  predicate BelowThreshold(store: Store, target: string, m: Matcher)
  {
    forall k :: 0 <= k < |store| ==> Score(store, target, m, k) < Threshold
  }

  /** Position `k` has the greatest similarity, and no earlier position reaches it. */
  predicate FirstBest(store: Store, target: string, m: Matcher, k: nat)
    requires k < |store|
  {
    && (forall j :: 0 <= j < |store| ==> Score(store, target, m, j) <= Score(store, target, m, k))
    && (forall j :: 0 <= j < k ==> Score(store, target, m, j) < Score(store, target, m, k))
  }

  /** On an empty store the tool returns the sentinel. */
  lemma EmptyStoreNotFound(query: string, m: Matcher)
    ensures GetCompanyByName([], query, m) == Returned(NotFound)
  {
    assert Filter([], ExactTest(query)) == [];
    assert Filter([], SubstringTest(query)) == [];
  }

  /**
   * A query that normalises to a stored name (punctuation, spacing or case
   * aside) is found by the fuzzy tier with ratio 1 when the first two tiers miss.
   */
  lemma NormalisedMatchFound(store: Store, query: string, m: Matcher, i: nat)
    requires ValidMatcher(m)
    requires NoExactMatch(store, query) && NoSubstringMatch(store, query)
    requires i < |store| && Clean(store[i].name) == Clean(query)
    ensures var r := ResolveTier(store, query, m);
            r.Fuzzy? && Similarity(m, Clean(query), Clean(r.company.name)) == 1.0
  {
    var t := Clean(query);
    SelfSimilarity(m, t);
    assert Score(store, t, m, i) == 1.0;
    FuzzyTierChoice(store, query, m);
    var r := ResolveTier(store, query, m);
    var k :| 0 <= k < |store| && r.company == store[k] && FirstBest(store, t, m, k);
    SimilarityAtMostOne(m, t, Clean(store[k].name));
  }

  /** "Acme Corp." misses the first two tiers against "Acme Corp" but is found by the third. */
  lemma AcmeCorpWithTrailingDot(acme: Company, m: Matcher)
    requires ValidMatcher(m)
    requires acme.name == "Acme Corp"
    ensures GetCompanyByName([acme], "Acme Corp.", m) == Returned(FormatCompany(acme))
  {
    AcmeCorpDotMissesFirstTiers(acme);
    AcmeCorpDotCleansAlike();
    NormalisedMatchFound([acme], "Acme Corp.", m, 0);
    var r := ResolveTier([acme], "Acme Corp.", m);
    assert r.company in [acme];
  }

  lemma AcmeCorpDotMissesFirstTiers(acme: Company)
    requires acme.name == "Acme Corp"
    ensures NoExactMatch([acme], "Acme Corp.") && NoSubstringMatch([acme], "Acme Corp.")
  {
    assert |Lower(acme.name)| < |Lower("Acme Corp.")|;
    if CaseContains(acme.name, "Acme Corp.") {
      ContainsNeedsRoom(Lower(acme.name), Lower("Acme Corp."));
    }
  }

  lemma AcmeCorpDotCleansAlike()
    ensures Clean("Acme Corp") == Clean("Acme Corp.")
  {
    CleanAcmeCorp();
    AcmeCorpCaseEq();
    CleanIgnoresCase("Acme Corp", "acme corp");
  }

  /** "acme corp" finds "Acme Corp" through the exact tier. */
  lemma AcmeCorpAnyCase(acme: Company, m: Matcher)
    requires acme.name == "Acme Corp"
    ensures ResolveTier([acme], "acme corp", m) == Exact(acme)
  {
    AcmeCorpCaseEq();
    ExactTierWins([acme], "acme corp", m, 0);
  }
}

=== FILE: models.dfy ===
/**
 * The two record types of companies/models.py, the invariants the store keeps
 * about them, and the Python `repr` through which a company's financials are
 * shown in a profile (formatting the field renders the decoded JSON dict).
 */
module Models {
  import opened Wrappers
  import opened Text

  // ---------------------------------------------------------------------------
  // Company
  // ---------------------------------------------------------------------------

  /** The JSON scalars a financials entry can hold. */
  datatype Scalar = Int(i: int) | Str(s: string) | Bool(b: bool) | Null

  /** A JSON object with its keys in insertion order. */
  type Financials = seq<(string, Scalar)>

  /** A company created without financials gets an empty object. */
  const NoFinancials: Financials := []

  datatype Company = Company(name: string, description: string, sector: string, financials: Financials)

  const MaxNameLength: nat := 120
  const MaxSectorLength: nat := 80

  /** The declared `max_length` of the name and sector columns. */
  predicate WithinDeclaredBounds(c: Company)
  {
    |c.name| <= MaxNameLength && |c.sector| <= MaxSectorLength
  }

  /** The company table in primary-key (insertion) order. */
  type Store = seq<Company>

  /** Names are unique, compared exactly, so "Acme" and "ACME" may both exist. */
  predicate UniqueNames(store: Store)
  {
    forall i, j :: 0 <= i < j < |store| ==> store[i].name != store[j].name
  }

  predicate AllWithinBounds(store: Store)
  {
    forall i :: 0 <= i < |store| ==> WithinDeclaredBounds(store[i])
  }

  function Names(store: Store): (r: set<string>)
    ensures forall i :: 0 <= i < |store| ==> store[i].name in r
    ensures forall n :: n in r ==> exists i :: 0 <= i < |store| && store[i].name == n
  {
    set i | 0 <= i < |store| :: store[i].name
  }

  lemma NamesSnoc(store: Store, c: Company)
    ensures Names(store + [c]) == Names(store) + {c.name}
  {
    var s := store + [c];
    forall n | n in Names(s)
      ensures n in Names(store) + {c.name}
    {
      var i :| 0 <= i < |s| && s[i].name == n;
      if i < |store| {
        assert s[i] == store[i];
      }
    }
    forall n | n in Names(store)
      ensures n in Names(s)
    {
      var i :| 0 <= i < |store| && store[i].name == n;
      assert s[i] == store[i];
    }
    assert s[|store|] == c;
  }

  /** With unique names there are exactly as many names as companies. */
  lemma {:induction false} UniqueNamesCount(store: Store)
    requires UniqueNames(store)
    ensures |Names(store)| == |store|
  {
    if |store| > 0 {
      var init := store[..|store| - 1];
      var last := store[|store| - 1];
      UniqueNamesCount(init);
      assert Names(store) == Names(init) + {last.name};
      assert last.name !in Names(init);
    }
  }

  // ---------------------------------------------------------------------------
  // ChatHistory
  // ---------------------------------------------------------------------------

  const MaxSessionIdLength: nat := 100

  /** One logged exchange; `timestamp` is the clock reading taken when it was created. */
  datatype ChatEntry = ChatEntry(userMessage: string, botResponse: string, timestamp: int, sessionId: Option<string>)

  /** `session_id` is nullable and, when present, declared at most 100 characters long. */
  predicate SessionWithinBounds(e: ChatEntry)
  {
    e.sessionId.None? || |e.sessionId.value| <= MaxSessionIdLength
  }

  /** The log as every query lists it: by descending timestamp. */
  predicate NewestFirst(log: seq<ChatEntry>)
  {
    forall i, j :: 0 <= i < j < |log| ==> log[i].timestamp >= log[j].timestamp
  }

  /** In a newest-first listing, nothing is newer than its head. */
  lemma HeadIsNewest(log: seq<ChatEntry>, e: ChatEntry)
    requires NewestFirst(log) && e in log
    ensures e.timestamp <= log[0].timestamp
  {
    var q :| 0 <= q < |log| && log[q] == e;
    if q > 0 {
      assert log[0].timestamp >= log[q].timestamp;
    }
  }

  /** An entry no older than every entry of a newest-first listing may head it. */
  lemma NewestFirstCons(e: ChatEntry, log: seq<ChatEntry>)
    requires NewestFirst(log)
    requires forall k :: 0 <= k < |log| ==> log[k].timestamp <= e.timestamp
    ensures NewestFirst([e] + log)
  {
    var r := [e] + log;
    forall i, j | 0 <= i < j < |r|
      ensures r[i].timestamp >= r[j].timestamp
    {
      assert r[j] == log[j - 1];
      if i > 0 {
        assert r[i] == log[i - 1];
      }
    }
  }

  // ---------------------------------------------------------------------------
  // Python repr of financials
  // ---------------------------------------------------------------------------

  function HexDigit(d: nat): (c: char)
    requires d < 16
  {
    if d < 10 then DigitChar(d) else ('a' as int + d - 10) as char
  }

  /** Characters Python's `repr` writes as a `\xhh` escape (within Latin-1). */
  predicate ReprEscapesHex(c: char)
  {
    c < ' ' || c == '\U{7F}' || ('\U{80}' <= c <= '\U{A0}') || c == '\U{AD}'
  }

  function ReprChar(c: char, quote: char): (r: string)
    ensures |r| >= 1
  {
    if c == quote || c == '\\' then ['\\', c]
    else if c == '\t' then "\\t"
    else if c == '\n' then "\\n"
    else if c == '\r' then "\\r"
    else if ReprEscapesHex(c) then ['\\', 'x', HexDigit(c as int / 16), HexDigit(c as int % 16)]
    else [c]
  }

  function ReprBody(s: string, quote: char): (r: string)
    ensures |r| >= |s|
  {
    if |s| == 0 then "" else ReprChar(s[0], quote) + ReprBody(s[1..], quote)
  }

  /** No character of `s` is a quote, a backslash or one `repr` escapes. */
  predicate PlainText(s: string)
  {
    forall i :: 0 <= i < |s| ==> s[i] != '\'' && s[i] != '\\' && !ReprEscapesHex(s[i])
  }

  /** Inside single quotes, plain text is written as it is. */
  lemma {:induction false} PlainBody(s: string)
    ensures PlainText(s) ==> ReprBody(s, '\'') == s
  {
    if PlainText(s) && |s| > 0 {
      assert PlainText(s[1..]) by {
        forall i | 0 <= i < |s[1..]|
          ensures s[1..][i] != '\'' && s[1..][i] != '\\' && !ReprEscapesHex(s[1..][i])
        {
          assert s[1..][i] == s[i + 1];
        }
      }
      PlainBody(s[1..]);
      assert ReprChar(s[0], '\'') == [s[0]];
      assert s == [s[0]] + s[1..];
    }
  }

  /** Python's `repr(s)`: single quotes unless `s` holds a single quote and no double quote. */
  function ReprStr(s: string): (r: string)
    ensures |r| >= |s| + 2
    ensures r[0] == r[|r| - 1] && (r[0] == '\'' || r[0] == '"')
    ensures PlainText(s) ==> r == "'" + s + "'"
  {
    PlainBody(s);
    var quote := if '\'' in s && '"' !in s then '"' else '\'';
    [quote] + ReprBody(s, quote) + [quote]
  }

  function ReprScalar(v: Scalar): string
  {
    match v
    case Int(i) => IntToString(i)
    case Str(s) => ReprStr(s)
    case Bool(b) => if b then "True" else "False"
    case Null => "None"
  }

  /** One entry of the dict's text: `repr(key): repr(value)`. */
  function ReprEntry(key: string, v: Scalar): string
  {
    ReprStr(key) + ": " + ReprScalar(v)
  }

  function ReprEntries(f: Financials): (r: seq<string>)
    ensures |r| == |f|
    ensures forall k :: 0 <= k < |f| ==> r[k] == ReprEntry(f[k].0, f[k].1)
  {
    seq(|f|, k requires 0 <= k < |f| => ReprEntry(f[k].0, f[k].1))
  }

  /** Python's `str(d)` of the decoded financials dict. */
  function ReprFinancials(f: Financials): (r: string)
    ensures |r| >= 2 && r[0] == '{' && r[|r| - 1] == '}'
    ensures f == [] ==> r == "{}"
    ensures forall k :: 0 <= k < |f| ==> Contains(r, ReprEntry(f[k].0, f[k].1))
  {
    var body := Join(", ", ReprEntries(f));
    assert forall k :: 0 <= k < |f| ==> Contains("{" + body + "}", ReprEntry(f[k].0, f[k].1)) by {
      forall k | 0 <= k < |f|
        ensures Contains("{" + body + "}", ReprEntry(f[k].0, f[k].1))
      {
        JoinContainsPart(", ", ReprEntries(f), k);
        ContainsInContext("{", body, "}", ReprEntries(f)[k]);
      }
    }
    "{" + body + "}"
  }

  /** A one-key dict is its entry between braces. */
  lemma ReprFinancialsSingle(key: string, v: Scalar)
    ensures ReprFinancials([(key, v)]) == "{" + ReprEntry(key, v) + "}"
  {
    assert ReprEntries([(key, v)]) == [ReprEntry(key, v)];
  }

  /**
   * A further key adds `, ` and its entry just before the closing brace, so
   * the entries appear in the dict's insertion order.
   */
  lemma ReprFinancialsSnoc(f: Financials, key: string, v: Scalar)
    requires |f| > 0
    ensures var before := ReprFinancials(f);
            ReprFinancials(f + [(key, v)]) == before[..|before| - 1] + ", " + ReprEntry(key, v) + "}"
  {
    var parts, e := ReprEntries(f), ReprEntry(key, v);
    assert ReprEntries(f + [(key, v)]) == parts + [e];
    JoinSnoc(", ", parts, e);
    Reopen(Join(", ", parts), e);
  }

  lemma Reopen(j: string, e: string)
    ensures var before := "{" + j + "}";
            "{" + (j + ", " + e) + "}" == before[..|before| - 1] + ", " + e + "}"
  {
    var before := "{" + j + "}";
    assert before[..|before| - 1] == "{" + j;
  }
}

=== FILE: phrases.dfy ===
/**
 * The case-insensitive regex substitution that company_tool_node in
 * agent/langgraph_agent.py applies to a message: an alternation of
 * lower-case phrases, each between word boundaries, is removed wherever it
 * matches, scanning left to right and resuming after each match. The
 * alternatives are a parameter; the chatbot's own list and the facts about it
 * live in the Agent module.
 */
module Phrases {
  import opened Wrappers
  import opened Text

  // ---------------------------------------------------------------------------
  // Matching one phrase
  // ---------------------------------------------------------------------------

  /** `\w` restricted to ASCII. */
  predicate IsWordChar(c: char) { IsUpper(c) || IsLowerLetter(c) || IsDigit(c) || c == '_' }

  /** `\b` at position `i`: a word character on exactly one side. */
  predicate IsBoundary(s: string, i: nat)
    requires i <= |s|
  {
    (i > 0 && IsWordChar(s[i - 1])) != (i < |s| && IsWordChar(s[i]))
  }

  /** From its `j`-th character on, the lower-case `p` matches `s` at `i`, one character at a time, ignoring case. */
  predicate FoldedFrom(s: string, i: nat, p: string, j: nat)
    requires j <= |p|
    decreases |p| - j
  {
    j == |p| || (i + j < |s| && LowerChar(s[i + j]) == p[j] && FoldedFrom(s, i, p, j + 1))
  }

  /** The lower-case `p` matches `s` at `i`, ignoring case. */
  predicate FoldedAt(s: string, i: nat, p: string)
  {
    FoldedFrom(s, i, p, 0)
  }

  /** The character-by-character match is a match at every position. */
  lemma {:induction false} FoldedFromEvery(s: string, i: nat, p: string, j: nat)
    requires i + |p| <= |s| && j <= |p|
    ensures FoldedFrom(s, i, p, j) <==> forall t :: j <= t < |p| ==> LowerChar(s[i + t]) == p[t]
    decreases |p| - j
  {
    if j < |p| {
      FoldedFromEvery(s, i, p, j + 1);
    }
  }

  /** A window of `s` that lower-cases to `p` is a case-insensitive match of `p`. */
  lemma FoldedAtWindow(s: string, i: nat, w: string, p: string)
    requires i + |w| <= |s| && s[i..i + |w|] == w && Lower(w) == p
    ensures FoldedAt(s, i, p)
  {
    forall t | 0 <= t < |p|
      ensures LowerChar(s[i + t]) == p[t]
    {
      assert s[i + t] == w[t];
    }
    FoldedFromEvery(s, i, p, 0);
  }

  /** A match of at least two letters fixes them as the lower-cased first two characters. */
  lemma FoldedFirstTwo(s: string, i: nat, p: string)
    requires |p| >= 2 && FoldedAt(s, i, p)
    ensures i + 1 < |s| && p[..2] == [LowerChar(s[i]), LowerChar(s[i + 1])]
  {
    assert FoldedFrom(s, i, p, 1);
  }

  /** The phrase `p` (lower case) occurs at `i` ignoring case, with a word boundary on both sides. */
  predicate PhraseAt(s: string, i: nat, p: string)
  {
    && i + |p| <= |s|
    && FoldedAt(s, i, p)
    && IsBoundary(s, i)
    && IsBoundary(s, i + |p|)
  }

  // ---------------------------------------------------------------------------
  // The alternation and the substitution
  // ---------------------------------------------------------------------------

  /** No alternative is empty, so every match moves the scan forward. */
  predicate NonEmptyAlternatives(alts: seq<string>)
  {
    forall k :: 0 <= k < |alts| ==> |alts[k]| > 0
  }

  /**
   * The shape of the filler pattern the proofs rely on: every alternative
   * starts and ends with a lower-case letter, and no two share their first
   * two letters.
   */
  predicate WellFormedAlternatives(alts: seq<string>)
  {
    && (forall k :: 0 <= k < |alts| ==>
          |alts[k]| >= 2 && IsLowerLetter(alts[k][0]) && IsLowerLetter(alts[k][|alts[k]| - 1]))
    && (forall j, k :: 0 <= j < k < |alts| ==> alts[j][..2] != alts[k][..2])
  }

  predicate FillerAt(alts: seq<string>, s: string, i: nat)
  {
    exists k :: 0 <= k < |alts| && PhraseAt(s, i, alts[k])
  }

  /** No alternative matches anywhere from `i` on. */
  predicate NoFillerFrom(alts: seq<string>, s: string, i: nat)
  {
    forall t :: i <= t < |s| ==> !FillerAt(alts, s, t)
  }

  /** Alternative `k`, written in any case, at `i` and followed by a space. */
  predicate SpacedPhraseAt(alts: seq<string>, s: string, i: nat, k: nat)
  {
    && k < |alts| && i + |alts[k]| < |s|
    && Lower(s[i..i + |alts[k]|]) == alts[k] && s[i + |alts[k]|] == ' '
  }

  /** The first alternative, from the `k`-th on, that matches at `i`. */
  function FirstFillerFrom(alts: seq<string>, s: string, i: nat, k: nat): (r: Option<nat>)
    requires k <= |alts|
    ensures r.Some? ==> k <= r.value < |alts| && i + |alts[r.value]| <= |s|
    decreases |alts| - k
  {
    if k == |alts| then None
    else if PhraseAt(s, i, alts[k]) then Some(k)
    else FirstFillerFrom(alts, s, i, k + 1)
  }

  /** The alternative found matches and none before it does; when none is found, none matches. */
  lemma {:induction false} FirstFillerFound(alts: seq<string>, s: string, i: nat, k: nat)
    requires k <= |alts|
    ensures var r := FirstFillerFrom(alts, s, i, k);
            && (r.Some? ==> && PhraseAt(s, i, alts[r.value])
                            && forall j :: k <= j < r.value ==> !PhraseAt(s, i, alts[j]))
            && (r.None? ==> forall j :: k <= j < |alts| ==> !PhraseAt(s, i, alts[j]))
    decreases |alts| - k
  {
    if k < |alts| && !PhraseAt(s, i, alts[k]) {
      FirstFillerFound(alts, s, i, k + 1);
    }
  }

  /**
   * The regex substitution of the alternatives `alts` from position `i` on: a
   * match is dropped and scanning resumes after it.
   */
  function RemoveFillersFrom(alts: seq<string>, s: string, i: nat): (r: string)
    requires NonEmptyAlternatives(alts) && i <= |s|
    ensures |r| <= |s| - i
    decreases |s| - i
  {
    if i == |s| then ""
    else
      match FirstFillerFrom(alts, s, i, 0)
      case Some(k) => RemoveFillersFrom(alts, s, i + |alts[k]|)
      case None => [s[i]] + RemoveFillersFrom(alts, s, i + 1)
  }

  // ---------------------------------------------------------------------------
  // How the substitution treats a stretch of text
  // ---------------------------------------------------------------------------

  /** Where no filler starts, the substitution copies the text. */
  lemma NoFillerCopies(alts: seq<string>, s: string, i: nat)
    requires NonEmptyAlternatives(alts) && i <= |s| && NoFillerFrom(alts, s, i)
    ensures RemoveFillersFrom(alts, s, i) == s[i..]
  {
    CopiesUpTo(alts, s, i, |s|);
  }

  /** A stretch `[i, j)` where no filler starts is copied as it is. */
  lemma {:induction false} CopiesUpTo(alts: seq<string>, s: string, i: nat, j: nat)
    requires NonEmptyAlternatives(alts) && i <= j <= |s|
    requires forall t :: i <= t < j ==> !FillerAt(alts, s, t)
    ensures RemoveFillersFrom(alts, s, i) == s[i..j] + RemoveFillersFrom(alts, s, j)
    decreases j - i
  {
    if i < j {
      NonFillerCopied(alts, s, i);
      CopiesUpTo(alts, s, i + 1, j);
      assert s[i..j] == [s[i]] + s[i + 1..j];
    }
  }

  /** A character where no filler starts is copied. */
  lemma NonFillerCopied(alts: seq<string>, s: string, i: nat)
    requires NonEmptyAlternatives(alts) && i < |s| && !FillerAt(alts, s, i)
    ensures RemoveFillersFrom(alts, s, i) == [s[i]] + RemoveFillersFrom(alts, s, i + 1)
  {
    FirstFillerIsFiller(alts, s, i);
  }

  lemma FirstFillerIsFiller(alts: seq<string>, s: string, i: nat)
    ensures FirstFillerFrom(alts, s, i, 0).Some? ==> FillerAt(alts, s, i)
  {
    FirstFillerFound(alts, s, i, 0);
    var f := FirstFillerFrom(alts, s, i, 0);
    if f.Some? {
      assert PhraseAt(s, i, alts[f.value]);
    }
  }

  /** No two alternatives match at the same place: they differ in their first two letters. */
  lemma FillersExclusive(alts: seq<string>, s: string, i: nat, j: nat, k: nat)
    requires WellFormedAlternatives(alts) && j < k < |alts|
    ensures !(PhraseAt(s, i, alts[j]) && PhraseAt(s, i, alts[k]))
  {
    if PhraseAt(s, i, alts[j]) && PhraseAt(s, i, alts[k]) {
      FoldedFirstTwo(s, i, alts[j]);
      FoldedFirstTwo(s, i, alts[k]);
    }
  }

  /** A character that lower-cases to a letter is a letter, so a word character. */
  lemma LowersToLetter(c: char)
    requires IsLowerLetter(LowerChar(c))
    ensures IsWordChar(c)
  {
  }

  /**
   * A window that lower-cases to the letter-bounded `p`, at the start or
   * after a non-word character, and followed by a space, is a phrase match.
   */
  lemma PhraseAtWord(s: string, i: nat, p: string)
    requires |p| > 0 && IsLowerLetter(p[0]) && IsLowerLetter(p[|p| - 1])
    requires i + |p| < |s| && Lower(s[i..i + |p|]) == p && s[i + |p|] == ' '
    requires i == 0 || !IsWordChar(s[i - 1])
    ensures PhraseAt(s, i, p)
  {
    var w := s[i..i + |p|];
    assert IsWordChar(s[i]) && IsWordChar(s[i + |p| - 1]) by {
      assert LowerChar(w[0]) == p[0];
      LowersToLetter(w[0]);
      assert LowerChar(w[|w| - 1]) == p[|p| - 1];
      LowersToLetter(w[|w| - 1]);
    }
    FoldedAtWindow(s, i, w, p);
  }

  /** When alternative `k` matches at `j`, the regex takes it: no earlier alternative can match there. */
  lemma FirstFillerIs(alts: seq<string>, s: string, j: nat, k: nat)
    requires WellFormedAlternatives(alts) && k < |alts| && PhraseAt(s, j, alts[k])
    ensures FirstFillerFrom(alts, s, j, 0) == Some(k)
  {
    forall j' | 0 <= j' < k
      ensures !PhraseAt(s, j, alts[j'])
    {
      FillersExclusive(alts, s, j, j', k);
    }
    FirstFillerFound(alts, s, j, 0);
  }

  /**
   * Scanning from `i`, the text up to the next filler occurrence at `j` is
   * copied and the filler itself is dropped; scanning resumes right after it.
   */
  lemma FillerSegment(alts: seq<string>, s: string, i: nat, j: nat, k: nat)
    requires WellFormedAlternatives(alts) && NonEmptyAlternatives(alts)
    requires i <= j && k < |alts| && PhraseAt(s, j, alts[k])
    requires forall t :: i <= t < j ==> !FillerAt(alts, s, t)
    ensures RemoveFillersFrom(alts, s, i) == s[i..j] + RemoveFillersFrom(alts, s, j + |alts[k]|)
  {
    FillerDropped(alts, s, j, k);
    CopiesUpTo(alts, s, i, j);
  }

  /** A filler found at `j` is dropped and scanning resumes right after it. */
  lemma FillerDropped(alts: seq<string>, s: string, j: nat, k: nat)
    requires WellFormedAlternatives(alts) && NonEmptyAlternatives(alts)
    requires k < |alts| && PhraseAt(s, j, alts[k])
    ensures j + |alts[k]| <= |s|
    ensures RemoveFillersFrom(alts, s, j) == RemoveFillersFrom(alts, s, j + |alts[k]|)
  {
    FirstFillerIs(alts, s, j, k);
  }

  /** One character that starts no filler, then a filler: the character is kept and the filler dropped. */
  lemma FillerAfterOneChar(alts: seq<string>, s: string, i: nat, k: nat)
    requires WellFormedAlternatives(alts) && NonEmptyAlternatives(alts)
    requires k < |alts| && PhraseAt(s, i + 1, alts[k]) && !FillerAt(alts, s, i)
    ensures RemoveFillersFrom(alts, s, i) == [s[i]] + RemoveFillersFrom(alts, s, i + 1 + |alts[k]|)
  {
    FillerDropped(alts, s, i + 1, k);
    NonFillerCopied(alts, s, i);
  }

  /** No filler starts at `t` when no alternative both fits and begins with the letter found there. */
  lemma NoFillerStartsAt(alts: seq<string>, s: string, t: nat)
    requires NonEmptyAlternatives(alts) && t < |s|
    requires forall k :: 0 <= k < |alts| ==> t + |alts[k]| > |s| || LowerChar(s[t]) != alts[k][0]
    ensures !FillerAt(alts, s, t)
  {
  }

  // ---------------------------------------------------------------------------
  // Messages that open with filler phrases
  // ---------------------------------------------------------------------------

  /** A phrase match at the start, followed by a space and no further match, leaves the rest of the text. */
  lemma LeadingPhraseRemoved(alts: seq<string>, s: string, k: nat)
    requires WellFormedAlternatives(alts) && NonEmptyAlternatives(alts)
    requires SpacedPhraseAt(alts, s, 0, k) && NoFillerFrom(alts, s, |alts[k]|)
    ensures RemoveFillersFrom(alts, s, 0) == s[|alts[k]|..]
  {
    FirstPhraseDropped(alts, s, k);
    NoFillerCopies(alts, s, |alts[k]|);
  }

  /** `TwoPhrasesRemoved` on a message written as two words, spaces and a name. */
  lemma TwoWordsRemoved(alts: seq<string>, v: string, w: string, name: string, j: nat, k: nat)
    requires WellFormedAlternatives(alts) && NonEmptyAlternatives(alts)
    requires j < |alts| && Lower(v) == alts[j]
    requires k < |alts| && Lower(w) == alts[k]
    requires var s := v + " " + w + " " + name;
             forall t :: |v| + 1 + |w| <= t < |s| ==> !FillerAt(alts, s, t)
    ensures RemoveFillersFrom(alts, v + " " + w + " " + name, 0) == "  " + name
  {
    var s := v + " " + w + " " + name;
    WordsApart(v, w, name);
    TwoPhrasesRemoved(alts, s, j, k);
    var r := RemoveFillersFrom(alts, s, 0);
    assert r == " " + (" " + name);
    assert " " + (" " + name) == "  " + name;
  }

  /** Where the two words and the name sit in `v + " " + w + " " + name`. */
  lemma WordsApart(v: string, w: string, name: string)
    ensures var s := v + " " + w + " " + name;
            && s[0..|v|] == v && s[|v|] == ' '
            && s[|v| + 1..|v| + 1 + |w|] == w && s[|v| + 1 + |w|..] == " " + name
  {
  }

  /**
   * Phrase matches at the start and right after the following space, the
   * second also followed by a space, and no match after it: both phrases go
   * and the two spaces stay.
   */
  lemma TwoPhrasesRemoved(alts: seq<string>, s: string, j: nat, k: nat)
    requires WellFormedAlternatives(alts) && NonEmptyAlternatives(alts)
    requires SpacedPhraseAt(alts, s, 0, j) && SpacedPhraseAt(alts, s, |alts[j]| + 1, k)
    requires NoFillerFrom(alts, s, |alts[j]| + 1 + |alts[k]|)
    ensures RemoveFillersFrom(alts, s, 0) == " " + s[|alts[j]| + 1 + |alts[k]|..]
  {
    FirstPhraseDropped(alts, s, j);
    LastPhraseRemoved(alts, s, |alts[j]|, k);
  }

  /** A space, then a phrase match followed by a space and no further match: the first space and the rest stay. */
  lemma LastPhraseRemoved(alts: seq<string>, s: string, a: nat, k: nat)
    requires WellFormedAlternatives(alts) && NonEmptyAlternatives(alts)
    requires a < |s| && s[a] == ' ' && SpacedPhraseAt(alts, s, a + 1, k)
    requires NoFillerFrom(alts, s, a + 1 + |alts[k]|)
    ensures RemoveFillersFrom(alts, s, a) == " " + s[a + 1 + |alts[k]|..]
  {
    var b := a + 1 + |alts[k]|;
    NoFillerCopies(alts, s, b);
    SecondPhraseDropped(alts, s, a, k);
    var rest := RemoveFillersFrom(alts, s, b);
    assert rest == s[b..];
  }

  /** A phrase match at the start, followed by a space, is dropped. */
  lemma FirstPhraseDropped(alts: seq<string>, s: string, j: nat)
    requires WellFormedAlternatives(alts) && NonEmptyAlternatives(alts) && SpacedPhraseAt(alts, s, 0, j)
    ensures RemoveFillersFrom(alts, s, 0) == RemoveFillersFrom(alts, s, |alts[j]|)
  {
    PhraseAtWord(s, 0, alts[j]);
    FillerDropped(alts, s, 0, j);
  }

  /** A space, then a phrase match followed by a space: the first space is kept and the phrase dropped. */
  lemma SecondPhraseDropped(alts: seq<string>, s: string, a: nat, k: nat)
    requires WellFormedAlternatives(alts) && NonEmptyAlternatives(alts)
    requires a < |s| && s[a] == ' ' && SpacedPhraseAt(alts, s, a + 1, k)
    ensures RemoveFillersFrom(alts, s, a) == " " + RemoveFillersFrom(alts, s, a + 1 + |alts[k]|)
  {
    PhraseAtWord(s, a + 1, alts[k]);
    NoFillerStartsAt(alts, s, a);
    FillerAfterOneChar(alts, s, a, k);
  }
}

=== FILE: text.dfy ===
/**
 * String primitives shared by the resolver, the agent and the views: ASCII
 * lower-casing (the case folding SQLite's LIKE performs), substring search,
 * Python's `str.strip()`, code-point ordering of names (SQLite's BINARY
 * collation), decimal rendering of integers and `str.join`.
 */
module Text {

  // ---------------------------------------------------------------------------
  // Case
  // ---------------------------------------------------------------------------

  predicate IsUpper(c: char) { 'A' <= c <= 'Z' }

  predicate IsLowerLetter(c: char) { 'a' <= c <= 'z' }

  predicate IsDigit(c: char) { '0' <= c <= '9' }

  /** ASCII lower-casing of one character; every other character is kept. */
  function LowerChar(c: char): (r: char)
    ensures !IsUpper(r)
    ensures IsUpper(c) ==> IsLowerLetter(r) && r as int == c as int + 32
    ensures !IsUpper(c) ==> r == c
  {
    if IsUpper(c) then (c as int + 32) as char else c
  }

  function Lower(s: string): (r: string)
    ensures |r| == |s|
    ensures forall i :: 0 <= i < |s| ==> r[i] == LowerChar(s[i])
  {
    seq(|s|, i requires 0 <= i < |s| => LowerChar(s[i]))
  }

  /** Case-insensitive equality as SQLite's `LIKE` without wildcards decides it. */
  predicate CaseEq(a: string, b: string) { Lower(a) == Lower(b) }

  // ---------------------------------------------------------------------------
  // Substrings
  // ---------------------------------------------------------------------------

  predicate IsPrefix(p: string, s: string) { |p| <= |s| && s[..|p|] == p }

  predicate EndsWith(s: string, suffix: string) { |suffix| <= |s| && s[|s| - |suffix|..] == suffix }

  predicate OccursAt(s: string, p: string, i: nat) { i + |p| <= |s| && s[i..i + |p|] == p }

  /** Python's `p in s` for strings. */
  predicate Contains(s: string, p: string) { exists i: nat | i <= |s| :: OccursAt(s, p, i) }

  /** Case-insensitive containment as SQLite's `LIKE '%p%'` decides it. */
  predicate CaseContains(s: string, p: string) { Contains(Lower(s), Lower(p)) }

  /** The window of `s` at `i` equals `p` up to ASCII case. */
  predicate CaseOccursAt(s: string, p: string, i: nat) { i + |p| <= |s| && CaseEq(s[i..i + |p|], p) }

  /** Equality up to case compares the strings character by character, folding ASCII upper-case letters only. */
  lemma CaseEqByCharacter(a: string, b: string)
    ensures CaseEq(a, b) <==> |a| == |b| && forall i :: 0 <= i < |a| ==> LowerChar(a[i]) == LowerChar(b[i])
  {
    if |a| == |b| && forall i :: 0 <= i < |a| ==> LowerChar(a[i]) == LowerChar(b[i]) {
      assert Lower(a) == Lower(b);
    }
  }

  /** Containment up to case is a window of the text equal to the pattern up to case. */
  lemma CaseContainsWindow(s: string, p: string)
    ensures CaseContains(s, p) <==> exists i: nat :: CaseOccursAt(s, p, i)
  {
    if CaseContains(s, p) {
      var i: nat :| i <= |Lower(s)| && OccursAt(Lower(s), Lower(p), i);
      LowerSlice(s, i, i + |p|);
      assert CaseOccursAt(s, p, i);
    }
    if i: nat :| CaseOccursAt(s, p, i) {
      LowerSlice(s, i, i + |p|);
      assert OccursAt(Lower(s), Lower(p), i);
    }
  }

  lemma LowerSlice(s: string, i: nat, j: nat)
    requires i <= j <= |s|
    ensures Lower(s[i..j]) == Lower(s)[i..j]
  {
  }

  lemma ContainsEmpty(s: string)
    ensures Contains(s, "")
  {
    assert OccursAt(s, "", 0);
  }

  lemma ContainsSelf(s: string)
    ensures Contains(s, s)
  {
    assert OccursAt(s, s, 0);
  }

  /** An occurrence inside a part is an occurrence inside the whole. */
  lemma ContainsMiddle(a: string, p: string, b: string)
    ensures Contains(a + p + b, p)
  {
    assert (a + p + b)[|a|..|a| + |p|] == p;
    assert OccursAt(a + p + b, p, |a|);
  }

  /** Each of four concatenated pieces can be found in the result: the first at the start, the last at the end. */
  lemma FourParts(a: string, b: string, c: string, d: string)
    ensures IsPrefix(a, a + b + c + d) && EndsWith(a + b + c + d, d)
    ensures Contains(a + b + c + d, b) && Contains(a + b + c + d, c)
  {
    var r := a + b + c + d;
    assert r[..|a|] == a;
    assert r[|r| - |d|..] == d;
    ContainsMiddle(a, b, c + d);
    assert r == a + b + (c + d);
    ContainsMiddle(a + b, c, d);
  }

  lemma ContainsInContext(a: string, s: string, b: string, p: string)
    requires Contains(s, p)
    ensures Contains(a + s + b, p)
  {
    var i: nat :| i <= |s| && OccursAt(s, p, i);
    assert (a + s + b)[|a| + i..|a| + i + |p|] == s[i..i + |p|];
    assert OccursAt(a + s + b, p, |a| + i);
  }

  // ---------------------------------------------------------------------------
  // Python's str.strip()
  // ---------------------------------------------------------------------------

  /** The characters for which Python's `str.isspace()` holds. */
  predicate IsPySpace(c: char)
  {
    || ('\t' <= c <= '\r')                     // \t \n \x0b \x0c \r
    || ('\U{1C}' <= c <= '\U{1F}')             // file, group, record, unit separators
    || c == ' ' || c == '\U{85}' || c == '\U{A0}' || c == '\U{1680}'
    || ('\U{2000}' <= c <= '\U{200A}')
    || c == '\U{2028}' || c == '\U{2029}' || c == '\U{202F}' || c == '\U{205F}' || c == '\U{3000}'
  }

  /** The first position at or after `i` that is not whitespace. */
  function SkipSpaces(s: string, i: nat): (k: nat)
    requires i <= |s|
    ensures i <= k <= |s|
    ensures forall j :: i <= j < k ==> IsPySpace(s[j])
    ensures k == |s| || !IsPySpace(s[k])
    decreases |s| - i
  {
    if i == |s| || !IsPySpace(s[i]) then i else SkipSpaces(s, i + 1)
  }

  /** The end of `s[..j]` once its trailing whitespace is dropped, not going below `lo`. */
  function SkipSpacesBack(s: string, lo: nat, j: nat): (k: nat)
    requires lo <= j <= |s|
    ensures lo <= k <= j
    ensures forall m :: k <= m < j ==> IsPySpace(s[m])
    ensures k == lo || !IsPySpace(s[k - 1])
  {
    if j == lo || !IsPySpace(s[j - 1]) then j else SkipSpacesBack(s, lo, j - 1)
  }

  predicate NoOuterSpace(s: string)
  {
    |s| == 0 || (!IsPySpace(s[0]) && !IsPySpace(s[|s| - 1]))
  }

  /**
   * Python's `s.strip()`: the longest infix of `s` with no whitespace at
   * either end, obtained by removing only whitespace.
   */
  function Strip(s: string): (r: string)
    ensures NoOuterSpace(r)
    ensures exists i, j :: 0 <= i <= j <= |s| && r == s[i..j]
                        && (forall m :: 0 <= m < i ==> IsPySpace(s[m]))
                        && (forall m :: j <= m < |s| ==> IsPySpace(s[m]))
  {
    var i := SkipSpaces(s, 0);
    var j := SkipSpacesBack(s, i, |s|);
    assert j > i ==> !IsPySpace(s[j - 1]);
    s[i..j]
  }

  /** Stripping leaves a string without outer whitespace unchanged. */
  lemma StripNoOuterSpace(s: string)
    requires NoOuterSpace(s)
    ensures Strip(s) == s
  {
    if |s| > 0 {
      assert SkipSpaces(s, 0) == 0;
      assert SkipSpacesBack(s, 0, |s|) == |s|;
    }
  }

  lemma StripIdempotent(s: string)
    ensures Strip(Strip(s)) == Strip(s)
  {
    StripNoOuterSpace(Strip(s));
  }

  /** Whitespace in front of a string without outer whitespace is all that stripping removes. */
  lemma StripLeadingSpace(w: string, s: string)
    requires forall m :: 0 <= m < |w| ==> IsPySpace(w[m])
    requires NoOuterSpace(s)
    ensures Strip(w + s) == s
  {
    var t := w + s;
    forall m | 0 <= m < |w|
      ensures IsPySpace(t[m])
    {
      assert t[m] == w[m];
    }
    if |s| > 0 {
      assert t[|w|] == s[0];
      assert t[|t| - 1] == s[|s| - 1];
    }
    SkipSpacesPastPrefix(t, |w|, 0);
    assert SkipSpacesBack(t, |w|, |t|) == |t|;
    assert t[|w|..|t|] == s;
  }

  lemma SkipSpacesPastPrefix(t: string, k: nat, i: nat)
    requires i <= k <= |t|
    requires forall m :: i <= m < k ==> IsPySpace(t[m])
    requires k == |t| || !IsPySpace(t[k])
    ensures SkipSpaces(t, i) == k
    decreases k - i
  {
    if i < k {
      SkipSpacesPastPrefix(t, k, i + 1);
    }
  }

  // ---------------------------------------------------------------------------
  // Code-point ordering (SQLite's BINARY collation on UTF-8 text)
  // ---------------------------------------------------------------------------

  /** `a` sorts no later than `b`: `a` is a prefix of `b`, or is smaller at the first difference. */
  predicate LexLe(a: string, b: string)
    decreases |a|
  {
    |a| == 0 || (|b| > 0 && (a[0] < b[0] || (a[0] == b[0] && LexLe(a[1..], b[1..]))))
  }

  lemma {:induction false} LexLeRefl(a: string)
    ensures LexLe(a, a)
    decreases |a|
  {
    if |a| > 0 {
      LexLeRefl(a[1..]);
    }
  }

  lemma {:induction false} LexLeTotal(a: string, b: string)
    ensures LexLe(a, b) || LexLe(b, a)
    decreases |a|
  {
    if |a| > 0 && |b| > 0 && a[0] == b[0] {
      LexLeTotal(a[1..], b[1..]);
    }
  }

  lemma {:induction false} LexLeAntisym(a: string, b: string)
    requires LexLe(a, b) && LexLe(b, a)
    ensures a == b
    decreases |a|
  {
    if |a| > 0 {
      LexLeAntisym(a[1..], b[1..]);
      assert a == [a[0]] + a[1..];
      assert b == [b[0]] + b[1..];
    }
  }

  lemma {:induction false} LexLeTrans(a: string, b: string, c: string)
    requires LexLe(a, b) && LexLe(b, c)
    ensures LexLe(a, c)
    decreases |a|
  {
    if |a| > 0 && a[0] == b[0] && b[0] == c[0] {
      LexLeTrans(a[1..], b[1..], c[1..]);
    }
  }

  // ---------------------------------------------------------------------------
  // Decimal rendering (Python's `str(int)`)
  // ---------------------------------------------------------------------------

  function DigitChar(d: nat): (c: char)
    requires d < 10
    ensures IsDigit(c)
  {
    ('0' as int + d) as char
  }

  function DigitValue(c: char): (d: nat)
    requires IsDigit(c)
    ensures d < 10
  {
    c as int - '0' as int
  }

  /** Decimal digits of `n`, most significant first, with no leading zero. */
  function NatToString(n: nat): (r: string)
    ensures |r| > 0
    ensures forall i :: 0 <= i < |r| ==> IsDigit(r[i])
    ensures r[0] == '0' ==> n == 0 && r == "0"
  {
    if n < 10 then [DigitChar(n)] else NatToString(n / 10) + [DigitChar(n % 10)]
  }

  /** Reads back a string of decimal digits. */
  function ParseDigits(s: string): (n: nat)
    requires forall i :: 0 <= i < |s| ==> IsDigit(s[i])
  {
    if |s| == 0 then 0 else 10 * ParseDigits(s[..|s| - 1]) + DigitValue(s[|s| - 1])
  }

  /** Rendering an integer in decimal loses nothing. */
  lemma {:induction false} NatToStringRoundTrip(n: nat)
    ensures ParseDigits(NatToString(n)) == n
  {
    var r := NatToString(n);
    if n >= 10 {
      NatToStringRoundTrip(n / 10);
      assert r[..|r| - 1] == NatToString(n / 10);
    }
  }

  /** Python's `str(i)` for any integer. */
  function IntToString(i: int): (r: string)
    ensures |r| > 0
    ensures i >= 0 ==> (forall k :: 0 <= k < |r| ==> IsDigit(r[k])) && ParseDigits(r) == i
    ensures i < 0 ==> r[0] == '-' && (forall k :: 1 <= k < |r| ==> IsDigit(r[k])) && ParseDigits(r[1..]) == -i
  {
    if i >= 0 then
      NatToStringRoundTrip(i);
      NatToString(i)
    else
      NatToStringRoundTrip(-i);
      var r := "-" + NatToString(-i);
      assert r[1..] == NatToString(-i);
      r
  }

  // ---------------------------------------------------------------------------
  // Python's sep.join(parts)
  // ---------------------------------------------------------------------------

  function Join(sep: string, parts: seq<string>): (r: string)
    ensures |parts| == 1 ==> r == parts[0]
  {
    if |parts| == 0 then ""
    else if |parts| == 1 then parts[0]
    else parts[0] + sep + Join(sep, parts[1..])
  }

  /** Joining one more part appends the separator and that part. */
  lemma {:induction false} JoinSnoc(sep: string, parts: seq<string>, last: string)
    requires |parts| > 0
    ensures Join(sep, parts + [last]) == Join(sep, parts) + sep + last
    decreases |parts|
  {
    if |parts| == 1 {
      assert (parts + [last])[1..] == [last];
    } else {
      assert (parts + [last])[1..] == parts[1..] + [last];
      JoinSnoc(sep, parts[1..], last);
    }
  }

  /** The joined text is as long as the parts plus one separator between each pair. */
  lemma {:induction false} JoinLength(sep: string, parts: seq<string>)
    requires |parts| > 0
    ensures |Join(sep, parts)| == TotalLength(parts) + (|parts| - 1) * |sep|
    decreases |parts|
  {
    if |parts| > 1 {
      JoinLength(sep, parts[1..]);
    }
  }

  function TotalLength(parts: seq<string>): nat
  {
    if |parts| == 0 then 0 else |parts[0]| + TotalLength(parts[1..])
  }

  /** Every part appears in the joined text. */
  lemma {:induction false} JoinContainsPart(sep: string, parts: seq<string>, k: nat)
    requires k < |parts|
    ensures Contains(Join(sep, parts), parts[k])
    decreases |parts|
  {
    if |parts| == 1 {
      ContainsSelf(parts[0]);
    } else if k == 0 {
      ContainsSelf(parts[0]);
      ContainsInContext("", parts[0], sep + Join(sep, parts[1..]), parts[0]);
      assert "" + parts[0] + (sep + Join(sep, parts[1..])) == Join(sep, parts);
    } else {
      JoinContainsPart(sep, parts[1..], k - 1);
      ContainsInContext(parts[0] + sep, Join(sep, parts[1..]), "", parts[k]);
      assert parts[0] + sep + Join(sep, parts[1..]) + "" == Join(sep, parts);
    }
  }
}

=== FILE: tools.dfy ===
/**
 * The company lookup tool of agent/tools.py: name normalisation, profile
 * formatting and the three-tier resolver (case-insensitive exact match,
 * case-insensitive substring match, fuzzy match on normalised names).
 *
 * The resolver reads the store and changes nothing, so it is a pure function
 * of the store, the query and the similarity matcher.
 */
module Tools {
  import opened Wrappers
  import opened Text
  import opened Models

  /** The sentinel the tool returns when no tier finds a company. */
  const NotFound: string := "Company not found."

  // ---------------------------------------------------------------------------
  // _clean
  // ---------------------------------------------------------------------------

  predicate IsCleanChar(c: char) { IsLowerLetter(c) || IsDigit(c) }

  predicate AllClean(s: string) { forall i :: 0 <= i < |s| ==> IsCleanChar(s[i]) }

  /** Lower-case, then keep only `[a-z0-9]`. */
  function Clean(text: string): (r: string)
    ensures AllClean(r)
    ensures |r| <= |text|
  {
    if |text| == 0 then ""
    else
      var c := LowerChar(text[0]);
      (if IsCleanChar(c) then [c] else "") + Clean(text[1..])
  }

  lemma {:induction false} CleanAppend(a: string, b: string)
    ensures Clean(a + b) == Clean(a) + Clean(b)
    decreases |a|
  {
    if |a| > 0 {
      assert (a + b)[0] == a[0];
      assert (a + b)[1..] == a[1..] + b;
      CleanAppend(a[1..], b);
    } else {
      assert a + b == b;
    }
  }

  /** The strings `Clean` leaves unchanged are exactly those made of `[a-z0-9]`. */
  lemma {:induction false} CleanFixedPoints(s: string)
    ensures Clean(s) == s <==> AllClean(s)
    decreases |s|
  {
    if |s| > 0 && AllClean(s) {
      assert AllClean(s[1..]);
      CleanFixedPoints(s[1..]);
    }
  }

  lemma CleanIdempotent(s: string)
    ensures Clean(Clean(s)) == Clean(s)
  {
    CleanFixedPoints(Clean(s));
  }

  /** Names that differ only in ASCII case clean to the same string. */
  lemma {:induction false} CleanIgnoresCase(a: string, b: string)
    requires CaseEq(a, b)
    ensures Clean(a) == Clean(b)
    decreases |a|
  {
    if |a| > 0 {
      assert LowerChar(a[0]) == Lower(a)[0] == Lower(b)[0] == LowerChar(b[0]);
      assert Lower(a[1..]) == Lower(a)[1..];
      assert Lower(b[1..]) == Lower(b)[1..];
      CleanIgnoresCase(a[1..], b[1..]);
    }
  }

  lemma CleanCons(c: char, s: string)
    ensures Clean([c] + s) == (if IsCleanChar(LowerChar(c)) then [LowerChar(c)] else "") + Clean(s)
  {
    assert ([c] + s)[1..] == s;
  }

  /** `_clean`'s documented intent: punctuation and case do not matter. */
  lemma CleanAcmeCorp()
    ensures Clean("Acme Corp.") == Clean("acme corp")
  {
    CleanDropsDot();
    CleanAppend("Acme Corp", ".");
    assert "Acme Corp" + "." == "Acme Corp.";
    AcmeCorpCaseEq();
    CleanIgnoresCase("Acme Corp", "acme corp");
  }

  lemma CleanDropsDot()
    ensures Clean(".") == ""
  {
    CleanCons('.', "");
    assert ['.'] + "" == ".";
  }

  lemma AcmeCorpCaseEq()
    ensures CaseEq("Acme Corp", "acme corp")
  {
    assert Lower("Acme Corp") == "acme corp";
    assert Lower("acme corp") == "acme corp";
  }

  // ---------------------------------------------------------------------------
  // _format_company
  // ---------------------------------------------------------------------------

  const NameSeparator: string := " \U{2014} "

  /** The three-line profile: name and description, sector, financials. */
  function FormatCompany(c: Company): (r: string)
    ensures IsPrefix(c.name + NameSeparator, r)
    ensures r != NotFound
  {
    c.name + NameSeparator + c.description + "\nSector: " + c.sector + "\nFinancials: " + ReprFinancials(c.financials)
  }

  /** The second line of every profile names the sector. */
  lemma ProfileShowsSector(c: Company)
    ensures Contains(FormatCompany(c), "\nSector: " + c.sector + "\n")
  {
    var p := "\nSector: " + c.sector + "\n";
    ContainsSelf(p);
    ContainsInContext(c.name + NameSeparator + c.description, p, "Financials: " + ReprFinancials(c.financials), p);
    assert c.name + NameSeparator + c.description + p + ("Financials: " + ReprFinancials(c.financials)) == FormatCompany(c);
  }

  // ---------------------------------------------------------------------------
  // Similarity (difflib.SequenceMatcher.ratio)
  // ---------------------------------------------------------------------------

  /** The number of matched characters `M` that `SequenceMatcher` finds between two strings. */
  type Matcher = (string, string) -> nat

  /** What the matching-block count is known to satisfy: at most the shorter length, all of a string against itself. */
  ghost predicate ValidMatcher(m: Matcher)
  {
    && (forall a, b :: m(a, b) <= |a| && m(a, b) <= |b|)
    && (forall a :: m(a, a) == |a|)
  }

  /** `2*M/T`, or 1 when both strings are empty. */
  function Ratio(matched: nat, total: nat): real
  {
    if total == 0 then 1.0 else (2 * matched) as real / total as real
  }

  /** The `difflib` ratio of two strings: twice the matched count over the total length, 1 for two empty strings. */
  function Similarity(m: Matcher, a: string, b: string): (r: real)
    ensures r >= 0.0
    ensures |a| + |b| == 0 ==> r == 1.0
    ensures |a| + |b| > 0 ==> r * (|a| + |b|) as real == (2 * m(a, b)) as real
  {
    Ratio(m(a, b), |a| + |b|)
  }

  const Threshold: real := 0.75

  /** The acceptance test on the ratio is the integer test `8*M >= 3*T`. */
  lemma ThresholdIsIntegerTest(matched: nat, total: nat)
    requires total > 0
    ensures Ratio(matched, total) >= Threshold <==> 8 * matched >= 3 * total
  {
    var r := Ratio(matched, total);
    assert r * total as real == (2 * matched) as real;
  }

  lemma SimilarityAtMostOne(m: Matcher, a: string, b: string)
    requires ValidMatcher(m)
    ensures 0.0 <= Similarity(m, a, b) <= 1.0
  {
    var k := m(a, b);
    var t := |a| + |b|;
    assert k <= |a| && k <= |b|;
    if t > 0 {
      QuotientAtMostOne((2 * k) as real, t as real);
    }
  }

  lemma SelfSimilarity(m: Matcher, a: string)
    requires ValidMatcher(m)
    ensures Similarity(m, a, a) == 1.0
  {
    assert m(a, a) == |a|;
    if |a| > 0 {
      QuotientSelf((2 * |a|) as real);
    }
  }

  lemma QuotientAtMostOne(x: real, y: real)
    requires 0.0 <= x <= y && y > 0.0
    ensures 0.0 <= x / y <= 1.0
  {
    assert x / y * y == x;
  }

  lemma QuotientSelf(x: real)
    requires x > 0.0
    ensures x / x == 1.0
  {
  }

  // ---------------------------------------------------------------------------
  // Tier 3: the fuzzy scan
  // ---------------------------------------------------------------------------

  /** Similarity of the cleaned query to the cleaned name of the `j`-th company. */
  function Score(store: Store, target: string, m: Matcher, j: nat): real
    requires j < |store|
  {
    Similarity(m, target, Clean(store[j].name))
  }

  /**
   * The company kept after scanning the first `n` companies, starting from
   * ratio 0 and replacing the best only on a strictly greater ratio: the first
   * company of greatest positive ratio, or none if every ratio is 0.
   */
  function BestSoFar(store: Store, target: string, m: Matcher, n: nat): (r: Option<nat>)
    requires n <= |store|
    ensures r.Some? ==> && r.value < n
                        && Score(store, target, m, r.value) > 0.0
                        && (forall j :: 0 <= j < n ==> Score(store, target, m, j) <= Score(store, target, m, r.value))
                        && (forall j :: 0 <= j < r.value ==> Score(store, target, m, j) < Score(store, target, m, r.value))
    ensures r.None? ==> forall j :: 0 <= j < n ==> Score(store, target, m, j) <= 0.0
  {
    if n == 0 then None
    else
      var prev := BestSoFar(store, target, m, n - 1);
      var best := if prev.Some? then Score(store, target, m, prev.value) else 0.0;
      if Score(store, target, m, n - 1) > best then Some(n - 1) else prev
  }

  // ---------------------------------------------------------------------------
  // The resolver
  // ---------------------------------------------------------------------------

  function Filter<T>(s: seq<T>, p: T -> bool): (r: seq<T>)
    ensures |r| <= |s|
    ensures forall k :: 0 <= k < |r| ==> r[k] in s && p(r[k])
    ensures forall k :: 0 <= k < |s| && p(s[k]) ==> s[k] in r
    ensures multiset(r) <= multiset(s)
  {
    if |s| == 0 then []
    else
      assert s == [s[0]] + s[1..];
      (if p(s[0]) then [s[0]] else []) + Filter(s[1..], p)
  }

  /** When only position `i` satisfies `p`, the filter keeps exactly that element. */
  lemma {:induction false} FilterSingle<T>(s: seq<T>, p: T -> bool, i: nat)
    requires i < |s| && p(s[i])
    requires forall j :: 0 <= j < |s| && j != i ==> !p(s[j])
    ensures Filter(s, p) == [s[i]]
    decreases |s|
  {
    if i == 0 {
      FilterNone(s[1..], p);
    } else {
      FilterSingle(s[1..], p, i - 1);
    }
  }

  /** When nothing satisfies `p`, nothing is kept. */
  lemma {:induction false} FilterNone<T>(s: seq<T>, p: T -> bool)
    requires forall k :: 0 <= k < |s| ==> !p(s[k])
    ensures Filter(s, p) == []
    decreases |s|
  {
    if |s| > 0 {
      FilterNone(s[1..], p);
    }
  }

  /** Two positions satisfying `p` leave at least two elements. */
  lemma {:induction false} FilterTwo<T>(s: seq<T>, p: T -> bool, i: nat, j: nat)
    requires i < j < |s| && p(s[i]) && p(s[j])
    ensures |Filter(s, p)| >= 2
    decreases |s|
  {
    if i == 0 {
      assert s[j] in s[1..];
    } else {
      FilterTwo(s[1..], p, i - 1, j - 1);
    }
  }

  /** The company whose name sorts first, the first such one on a tie. */
  function MinByName(cands: seq<Company>): (r: Company)
    requires |cands| > 0
    ensures r in cands
    ensures forall d :: d in cands ==> LexLe(r.name, d.name)
  {
    if |cands| == 1 then
      LexLeRefl(cands[0].name);
      cands[0]
    else
      var rest := MinByName(cands[1..]);
      if LexLe(cands[0].name, rest.name) then
        assert forall d :: d in cands[1..] ==> LexLe(cands[0].name, d.name) by {
          forall d | d in cands[1..] ensures LexLe(cands[0].name, d.name) {
            LexLeTrans(cands[0].name, rest.name, d.name);
          }
        }
        LexLeRefl(cands[0].name);
        cands[0]
      else
        LexLeTotal(cands[0].name, rest.name);
        rest
  }

  /** Tier 1's test: the name equals the query up to case. */
  function ExactTest(query: string): Company -> bool
  {
    (c: Company) => CaseEq(c.name, query)
  }

  /** Tier 2's test, `name__icontains=query`. */
  function SubstringTest(query: string): Company -> bool
  {
    (c: Company) => CaseContains(c.name, query)
  }

  /** Which tier answered, and with which company. */
  datatype Resolution =
    | Exact(company: Company)
    | Substring(company: Company)
    | Fuzzy(company: Company)
    | Ambiguous    // more than one case-insensitive exact match
    | NoMatch

  /**
   * The three tiers in order. Tier 1 asks for the single company whose name
   * equals the query up to case (several raise); tier 2 takes the first by
   * name of those containing the query up to case; tier 3 takes the best fuzzy
   * candidate if its ratio reaches the threshold.
   */
  function ResolveTier(store: Store, query: string, m: Matcher): (r: Resolution)
    ensures r.Exact? || r.Substring? || r.Fuzzy? ==> r.company in store
    ensures r.Exact? ==> CaseEq(r.company.name, query)
    ensures r.Substring? ==> CaseContains(r.company.name, query)
    ensures r.Fuzzy? ==> Similarity(m, Clean(query), Clean(r.company.name)) >= Threshold
  {
    var exact := Filter(store, ExactTest(query));
    if |exact| == 1 then
      assert exact[0] in exact;
      Exact(exact[0])
    else if |exact| > 1 then Ambiguous
    else
      var partial := Filter(store, SubstringTest(query));
      if |partial| > 0 then Substring(MinByName(partial))
      else
        match BestSoFar(store, Clean(query), m, |store|)
        case Some(k) => if Score(store, Clean(query), m, k) >= Threshold then Fuzzy(store[k]) else NoMatch
        case None => NoMatch
  }

  /** What the tool call produces: a string, or the exception it lets escape. */
  datatype ToolResult = Returned(text: string) | Raised

  /** `_get_company_by_name`: a formatted profile, the not-found sentinel, or an escaping exception. */
  function GetCompanyByName(store: Store, name: string, m: Matcher): (r: ToolResult)
    ensures r.Raised? <==> ResolveTier(store, name, m).Ambiguous?
    ensures r == Returned(NotFound) <==> ResolveTier(store, name, m).NoMatch?
    ensures var t := ResolveTier(store, name, m);
            t.Exact? || t.Substring? || t.Fuzzy? ==> r == Returned(FormatCompany(t.company))
  {
    match ResolveTier(store, name, m)
    case Exact(c) => Returned(FormatCompany(c))
    case Substring(c) => Returned(FormatCompany(c))
    case Fuzzy(c) => Returned(FormatCompany(c))
    case Ambiguous => Raised
    case NoMatch => Returned(NotFound)
  }
}

=== FILE: views.dfy ===
/**
 * The three API views of companies/views.py that carry logic: `chat` (answer
 * and log one exchange), `upload_companies_csv` (bulk import with
 * create-if-absent rows and per-row errors) and `chat_history` (filter by
 * session, newest twenty). The fresh session id, the clock and the parser
 * that turns a financials cell into data are inputs.
 */
module Views {
  import opened Wrappers
  import opened Text
  import opened Models
  import opened Tools
  import opened Agent

  // ---------------------------------------------------------------------------
  // chat
  // ---------------------------------------------------------------------------

  /**
   * A JSON value sent as `session_id`: null, a string, or any other value (a
   * number, boolean, array or object), known here by the text `str()` gives it.
   */
  datatype SessionValue = JsonNull | JsonString(s: string) | JsonOther(text: string)

  /** The `session_id` key of the request body: missing, or the value it holds. */
  datatype SessionField = Absent | Given(value: SessionValue)

  /** The request body: `message` (if present) and `session_id`. */
  datatype ChatRequest = ChatRequest(message: Option<string>, sessionId: SessionField)

  /** The response body: the answer and the session id, echoed as the JSON value it was. */
  datatype ChatReply = ChatReply(answer: string, sessionId: SessionValue)

  datatype ChatOutcome = ChatOutcome(reply: ChatReply, log: seq<ChatEntry>)

  /**
   * Place a new entry in the newest-first listing: before the first entry
   * that is not newer than it.
   */
  function InsertNewestFirst(log: seq<ChatEntry>, e: ChatEntry): (r: seq<ChatEntry>)
    ensures |r| == |log| + 1
    ensures multiset(r) == multiset(log) + multiset{e}
  {
    if |log| == 0 || log[0].timestamp <= e.timestamp then [e] + log
    else
      assert log == [log[0]] + log[1..];
      [log[0]] + InsertNewestFirst(log[1..], e)
  }

  /** Inserting keeps the listing newest-first. */
  lemma {:induction false} InsertKeepsNewestFirst(log: seq<ChatEntry>, e: ChatEntry)
    ensures NewestFirst(log) ==> NewestFirst(InsertNewestFirst(log, e))
  {
    if NewestFirst(log) && |log| > 0 {
      if log[0].timestamp <= e.timestamp {
        forall k | 0 <= k < |log|
          ensures log[k].timestamp <= e.timestamp
        {
          HeadIsNewest(log, log[k]);
        }
        NewestFirstCons(e, log);
      } else {
        var rest := InsertNewestFirst(log[1..], e);
        assert NewestFirst(log[1..]);
        InsertKeepsNewestFirst(log[1..], e);
        forall k | 0 <= k < |rest|
          ensures rest[k].timestamp <= log[0].timestamp
        {
          assert rest[k] in multiset(log[1..]) + multiset{e};
          if rest[k] != e {
            assert log == [log[0]] + log[1..];
            HeadIsNewest(log, rest[k]);
          }
        }
        NewestFirstCons(log[0], rest);
      }
    }
  }

  /** The session id taken from the body, or a fresh uuid when the key is absent. */
  function SessionOf(field: SessionField, freshId: string): (r: SessionValue)
    ensures r.JsonNull? <==> field.Given? && field.value.JsonNull?
    ensures field.Given? ==> r == field.value
    ensures field.Absent? ==> r == JsonString(freshId)
  {
    match field
    case Absent => JsonString(freshId)
    case Given(v) => v
  }

  /**
   * What the `session_id` column receives for a value: the character field
   * keeps a string or null and converts any other value to its `str()` text.
   */
  function StoredSessionId(v: SessionValue): Option<string>
  {
    match v
    case JsonNull => None
    case JsonString(s) => Some(s)
    case JsonOther(text) => Some(text)
  }

  /**
   * `chat`: answer the message, log exactly one exchange holding the answer
   * and session id that are returned, and echo a supplied session id.
   */
  function ChatView(log: seq<ChatEntry>, store: Store, req: ChatRequest, freshId: string, now: int, services: Services): (out: ChatOutcome)
    ensures out.reply.answer == RunChat(req.message.GetOr(""), store, services)
    ensures |out.log| == |log| + 1
    ensures multiset(out.log) == multiset(log) + multiset{ChatEntry(req.message.GetOr(""), out.reply.answer, now, StoredSessionId(out.reply.sessionId))}
    ensures NewestFirst(log) ==> NewestFirst(out.log)
    ensures req.sessionId.Given? ==> out.reply.sessionId == req.sessionId.value
    ensures req.sessionId.Absent? ==> out.reply.sessionId == JsonString(freshId)
  {
    var message := req.message.GetOr("");
    var sessionId := SessionOf(req.sessionId, freshId);
    var answer := RunChat(message, store, services);
    var entry := ChatEntry(message, answer, now, StoredSessionId(sessionId));
    InsertKeepsNewestFirst(log, entry);
    ChatOutcome(ChatReply(answer, sessionId), InsertNewestFirst(log, entry))
  }

  /**
   * A number, boolean, array or object given as the session id is logged as
   * its `str()` text but echoed as the value itself, not as that text.
   */
  lemma NonStringIdLoggedAsText(log: seq<ChatEntry>, store: Store, req: ChatRequest, freshId: string, now: int, services: Services)
    requires req.sessionId.Given? && req.sessionId.value.JsonOther?
    ensures var out := ChatView(log, store, req, freshId, now, services);
            && out.reply.sessionId == req.sessionId.value
            && out.reply.sessionId != JsonString(req.sessionId.value.text)
            && ChatEntry(req.message.GetOr(""), out.reply.answer, now, Some(req.sessionId.value.text)) in out.log
  {
    var out := ChatView(log, store, req, freshId, now, services);
    var text := req.sessionId.value.text;
    assert StoredSessionId(out.reply.sessionId) == Some(text);
    var e := ChatEntry(req.message.GetOr(""), out.reply.answer, now, Some(text));
    assert e in multiset(out.log);
  }

  /** The generated id is used only when the request carries no `session_id` key. */
  lemma FreshIdOnlyWhenAbsent(log: seq<ChatEntry>, store: Store, req: ChatRequest, id1: string, id2: string, now: int, services: Services)
    requires !req.sessionId.Absent?
    ensures ChatView(log, store, req, id1, now, services) == ChatView(log, store, req, id2, now, services)
  {
  }

  /** With a monotone clock the new exchange heads the listing. */
  lemma NewestExchangeFirst(log: seq<ChatEntry>, store: Store, req: ChatRequest, freshId: string, now: int, services: Services)
    requires forall k :: 0 <= k < |log| ==> log[k].timestamp <= now
    ensures var out := ChatView(log, store, req, freshId, now, services);
            out.log == [ChatEntry(req.message.GetOr(""), out.reply.answer, now, StoredSessionId(out.reply.sessionId))] + log
  {
  }

  /** The column text of a session value, if it has one, is within the declared length. */
  predicate IdFits(v: SessionValue)
  {
    StoredSessionId(v).None? || |StoredSessionId(v).value| <= MaxSessionIdLength
  }

  /** A generated id (36 characters) and supplied ids within the declared length keep the log within it. */
  lemma ChatKeepsSessionBounds(log: seq<ChatEntry>, store: Store, req: ChatRequest, freshId: string, now: int, services: Services)
    requires |freshId| == 36
    requires req.sessionId.Given? ==> IdFits(req.sessionId.value)
    requires forall k :: 0 <= k < |log| ==> SessionWithinBounds(log[k])
    ensures var out := ChatView(log, store, req, freshId, now, services);
            forall k :: 0 <= k < |out.log| ==> SessionWithinBounds(out.log[k])
  {
    var out := ChatView(log, store, req, freshId, now, services);
    forall k | 0 <= k < |out.log|
      ensures SessionWithinBounds(out.log[k])
    {
      assert out.log[k] in multiset(out.log);
      if out.log[k] in log {
        var q :| 0 <= q < |log| && log[q] == out.log[k];
      }
    }
  }

  // ---------------------------------------------------------------------------
  // chat_history
  // ---------------------------------------------------------------------------

  const HistoryLimit: nat := 20

  /** A non-empty `session_id` parameter selects that session; an absent or empty one selects everything. */
  function SessionTest(param: Option<string>): (r: ChatEntry -> bool)
    ensures param.None? || param == Some("") ==> forall e: ChatEntry :: r(e)
    ensures param.Some? && param.value != "" ==> forall e: ChatEntry :: r(e) <==> e.sessionId == param
  {
    if param.Some? && param.value != "" then (e: ChatEntry) => e.sessionId == param
    else (e: ChatEntry) => true
  }

  /** Filtering keeps the newest-first order. */
  lemma {:induction false} FilterNewestFirst(log: seq<ChatEntry>, p: ChatEntry -> bool)
    ensures NewestFirst(log) ==> NewestFirst(Filter(log, p))
    decreases |log|
  {
    if |log| > 0 && NewestFirst(log) {
      var rest := Filter(log[1..], p);
      assert NewestFirst(log[1..]);
      FilterNewestFirst(log[1..], p);
      if p(log[0]) {
        forall k | 0 <= k < |rest|
          ensures rest[k].timestamp <= log[0].timestamp
        {
          assert log == [log[0]] + log[1..];
          HeadIsNewest(log, rest[k]);
        }
        NewestFirstCons(log[0], rest);
      }
      assert Filter(log, p) == (if p(log[0]) then [log[0]] else []) + rest;
    }
  }

  /** `chat_history`: the first twenty entries of the (optionally session-filtered) newest-first log. */
  function ChatHistoryView(log: seq<ChatEntry>, param: Option<string>): (r: seq<ChatEntry>)
    ensures |r| <= HistoryLimit
    ensures forall k :: 0 <= k < |r| ==> r[k] in log && SessionTest(param)(r[k])
    ensures param.Some? && param.value != "" ==> forall k :: 0 <= k < |r| ==> r[k].sessionId == param
    ensures NewestFirst(log) ==> NewestFirst(r)
    ensures multiset(r) <= multiset(log)
    ensures var matching := Filter(log, SessionTest(param));
            && |r| == (if |matching| <= HistoryLimit then |matching| else HistoryLimit)
            && r == matching[..|r|]
  {
    var matching := Filter(log, SessionTest(param));
    FilterNewestFirst(log, SessionTest(param));
    var n := if |matching| <= HistoryLimit then |matching| else HistoryLimit;
    PrefixKeeps(matching, n);
    matching[..n]
  }

  /** A prefix of a listing holds no entry more often than the listing, and keeps it newest-first. */
  lemma PrefixKeeps(s: seq<ChatEntry>, n: nat)
    requires n <= |s|
    ensures multiset(s[..n]) <= multiset(s)
    ensures NewestFirst(s) ==> NewestFirst(s[..n])
    ensures forall k :: 0 <= k < n ==> s[..n][k] == s[k]
  {
    assert s == s[..n] + s[n..];
  }

  /**
   * The listing holds the newest matching exchanges: a matching exchange
   * left out is no newer than any listed one, and one is left out only when
   * twenty are listed.
   */
  lemma HistoryIsNewest(log: seq<ChatEntry>, param: Option<string>, j: nat)
    requires NewestFirst(log)
    requires j < |log| && SessionTest(param)(log[j])
    ensures var r := ChatHistoryView(log, param);
            log[j] !in r ==> |r| == HistoryLimit && forall k :: 0 <= k < |r| ==> r[k].timestamp >= log[j].timestamp
  {
    var matching := Filter(log, SessionTest(param));
    var r := ChatHistoryView(log, param);
    FilterNewestFirst(log, SessionTest(param));
    assert log[j] in matching;
    if log[j] !in r {
      var q :| 0 <= q < |matching| && matching[q] == log[j];
      assert |matching| > HistoryLimit;
      assert q >= HistoryLimit;
      forall k | 0 <= k < |r|
        ensures r[k].timestamp >= log[j].timestamp
      {
        assert r[k] == matching[k];
      }
    }
  }

  // ---------------------------------------------------------------------------
  // upload_companies_csv: one row
  // ---------------------------------------------------------------------------

  /**
   * A row of the CSV reader: column name to cell. A column the row is too
   * short for holds `None`; a column the header lacks is not a key.
   */
  type Row = map<string, Option<string>>

  /**
   * What evaluating a financials cell gives: the data it denotes, a value JSON
   * cannot encode (a set, a tuple key, ...), which fails only when inserted,
   * or an exception.
   */
  datatype Evaluation = Value(data: Financials) | Unencodable | Raises

  type Parser = string -> Evaluation

  /** The cell of column `key`, or `default` when the row has no such column. */
  function Cell(row: Row, key: string, default: string): Option<string>
  {
    if key in row then row[key] else Some(default)
  }

  /** The financials cell is used only when it is present and non-empty. */
  predicate HasFinancialsText(row: Row)
  {
    "financials" in row && row["financials"].Some? && row["financials"].value != ""
  }

  /** The financials a created company would get: the evaluated cell, or the empty object. */
  function RowFinancials(row: Row, parse: Parser): (r: Evaluation)
    ensures !HasFinancialsText(row) ==> r == Value(NoFinancials)
    ensures HasFinancialsText(row) ==> r == parse(row["financials"].value)
  {
    if HasFinancialsText(row) then parse(row["financials"].value) else Value(NoFinancials)
  }

  /** Why a row went into the error list. */
  datatype RowFailure =
    | NameMissing            // the name cell is None, so `.strip()` raises
    | FinancialsUnparsable   // evaluating the financials cell raises
    | NotJson                // the insert cannot encode the evaluated financials as JSON
    | CreateFailed           // the insert is refused: a NULL description or sector

  datatype RowError = RowError(row: Row, reason: RowFailure)

  datatype RowOutcome = Created(company: Company) | Skipped | Failed(reason: RowFailure)

  /**
   * One `get_or_create`: the name is stripped and the financials evaluated
   * first (either may raise), then an existing company of that exact name
   * is left alone, otherwise one is created from the row. Creating encodes
   * the financials as JSON before the database sees the NULL cells.
   */
  function ImportRow(store: Store, row: Row, parse: Parser): (r: RowOutcome)
    ensures r.Created? ==> && Cell(row, "name", "").Some?
                           && r.company.name == Strip(Cell(row, "name", "").value)
                           && r.company.name !in Names(store)
                           && Value(r.company.financials) == RowFinancials(row, parse)
                           && Some(r.company.description) == Cell(row, "description", "")
                           && Some(r.company.sector) == Cell(row, "sector", "")
    ensures r.Skipped? ==> Cell(row, "name", "").Some? && Strip(Cell(row, "name", "").value) in Names(store)
    ensures Cell(row, "name", "").Some? && !RowFinancials(row, parse).Raises? ==>
              (r.Skipped? <==> Strip(Cell(row, "name", "").value) in Names(store))
    ensures Cell(row, "name", "").Some? && RowFinancials(row, parse).Value? && Strip(Cell(row, "name", "").value) !in Names(store) ==>
              if Cell(row, "description", "").Some? && Cell(row, "sector", "").Some? then r.Created? else r == Failed(CreateFailed)
    ensures Cell(row, "name", "").Some? && RowFinancials(row, parse).Unencodable? && Strip(Cell(row, "name", "").value) !in Names(store) ==>
              r == Failed(NotJson)
    ensures Cell(row, "name", "").None? ==> r == Failed(NameMissing)
    ensures Cell(row, "name", "").Some? && RowFinancials(row, parse).Raises? ==> r == Failed(FinancialsUnparsable)
  {
    match Cell(row, "name", "")
    case None => Failed(NameMissing)
    case Some(raw) =>
      var name := Strip(raw);
      match RowFinancials(row, parse)
      case Raises => Failed(FinancialsUnparsable)
      case Unencodable => if name in Names(store) then Skipped else Failed(NotJson)
      case Value(financials) =>
        if name in Names(store) then Skipped
        else
          match (Cell(row, "description", ""), Cell(row, "sector", ""))
          case (Some(description), Some(sector)) => Created(Company(name, description, sector, financials))
          case _ => Failed(CreateFailed)
  }

  /** An unparsable financials cell is an error even when the company already exists. */
  lemma FinancialsCheckedFirst(store: Store, row: Row, parse: Parser)
    requires Cell(row, "name", "").Some?
    requires HasFinancialsText(row) && parse(row["financials"].value).Raises?
    ensures ImportRow(store, row, parse) == Failed(FinancialsUnparsable)
  {
  }

  /**
   * A cell that evaluates to data JSON cannot encode goes unnoticed when the
   * company exists, and is an error only for a new name, which must be inserted.
   */
  lemma UnencodableFailsOnlyOnInsert(store: Store, row: Row, parse: Parser)
    requires Cell(row, "name", "").Some?
    requires HasFinancialsText(row) && parse(row["financials"].value).Unencodable?
    ensures ImportRow(store, row, parse) == if Strip(Cell(row, "name", "").value) in Names(store) then Skipped else Failed(NotJson)
  {
  }

  // ---------------------------------------------------------------------------
  // upload_companies_csv: the row loop
  // ---------------------------------------------------------------------------

  datatype ImportState = ImportState(store: Store, created: nat, errors: seq<RowError>)

  /** One iteration of the loop: count a creation, record a failure, or move on. */
  function Step(st: ImportState, row: Row, parse: Parser): (r: ImportState)
    ensures var o := ImportRow(st.store, row, parse);
            o.Created? ==> r.store == st.store + [o.company] && r.created == st.created + 1 && r.errors == st.errors
    ensures var o := ImportRow(st.store, row, parse);
            !o.Created? ==> r.store == st.store && r.created == st.created
    ensures ImportRow(st.store, row, parse).Failed? <==> |r.errors| == |st.errors| + 1
    ensures |st.errors| <= |r.errors| && r.errors[..|st.errors|] == st.errors
  {
    var o := ImportRow(st.store, row, parse);
    var r := Settle(st, row, o);
    assert o.Failed? ==> r.errors[..|st.errors|] == st.errors;
    r
  }

  /** The loop's bookkeeping for one row whose outcome is `o`. */
  function Settle(st: ImportState, row: Row, o: RowOutcome): (r: ImportState)
    ensures o.Created? ==> r.store == st.store + [o.company] && r.created == st.created + 1 && r.errors == st.errors
    ensures !o.Created? ==> r.store == st.store && r.created == st.created
    ensures o.Failed? ==> r.errors == st.errors + [RowError(row, o.reason)]
    ensures !o.Failed? ==> r.errors == st.errors
  {
    match o
    case Created(c) => ImportState(st.store + [c], st.created + 1, st.errors)
    case Skipped => st
    case Failed(reason) => st.(errors := st.errors + [RowError(row, reason)])
  }

  predicate ExtendsStore(before: Store, after: Store)
  {
    |before| <= |after| && after[..|before|] == before
  }

  /**
   * The loop from state `st` over `rows`: companies are only appended, the
   * counter grows by exactly the number appended, each row adds at most one
   * creation or one error, and names stay unique.
   */
  function ImportFrom(st: ImportState, rows: seq<Row>, parse: Parser): (r: ImportState)
    ensures ExtendsStore(st.store, r.store)
    ensures r.created - st.created == |r.store| - |st.store| >= 0
    ensures (r.created - st.created) + (|r.errors| - |st.errors|) <= |rows|
    ensures |st.errors| <= |r.errors| && r.errors[..|st.errors|] == st.errors
    ensures UniqueNames(st.store) ==> UniqueNames(r.store)
    decreases |rows|
  {
    if |rows| == 0 then st
    else
      var next := Step(st, rows[0], parse);
      StepKeepsUniqueNames(st, rows[0], parse);
      var r := ImportFrom(next, rows[1..], parse);
      PrefixOfPrefix(st.store, next.store, r.store);
      PrefixOfPrefix(st.errors, next.errors, r.errors);
      r
  }

  /** A prefix of a prefix is a prefix. */
  lemma PrefixOfPrefix<T>(a: seq<T>, b: seq<T>, c: seq<T>)
    requires |a| <= |b| && b[..|a|] == a
    requires |b| <= |c| && c[..|b|] == b
    ensures |a| <= |c| && c[..|a|] == a
  {
    assert c[..|a|] == c[..|b|][..|a|];
  }

  /** A step creates only names not yet stored, so stored names stay unique. */
  lemma StepKeepsUniqueNames(st: ImportState, row: Row, parse: Parser)
    ensures UniqueNames(st.store) ==> UniqueNames(Step(st, row, parse).store)
  {
    var next := Step(st, row, parse);
    if UniqueNames(st.store) && next.store != st.store {
      var c := ImportRow(st.store, row, parse).company;
      assert next.store == st.store + [c];
      assert forall i :: 0 <= i < |st.store| ==> st.store[i].name != c.name;
    }
  }

  /** The whole loop: from the stored companies, a zero counter and no errors. */
  function ImportRows(store: Store, rows: seq<Row>, parse: Parser): (r: ImportState)
    ensures ExtendsStore(store, r.store)
    ensures r.created == |r.store| - |store|
    ensures r.created + |r.errors| <= |rows|
    ensures UniqueNames(store) ==> UniqueNames(r.store)
  {
    ImportFrom(ImportState(store, 0, []), rows, parse)
  }

  /** Running the loop over two batches is running it over the first, then the second. */
  lemma {:induction false} ImportConcat(st: ImportState, a: seq<Row>, b: seq<Row>, parse: Parser)
    ensures ImportFrom(st, a + b, parse) == ImportFrom(ImportFrom(st, a, parse), b, parse)
    decreases |a|
  {
    if |a| > 0 {
      assert (a + b)[0] == a[0];
      assert (a + b)[1..] == a[1..] + b;
      ImportConcat(Step(st, a[0], parse), a[1..], b, parse);
    } else {
      assert a + b == b;
    }
  }

  lemma StepCarriesErrors(st: ImportState, extra: seq<RowError>, row: Row, parse: Parser)
    ensures var plain := Step(st, row, parse);
            Step(st.(errors := extra + st.errors), row, parse) == plain.(errors := extra + plain.errors)
  {
    assert forall x: RowError :: extra + (st.errors + [x]) == (extra + st.errors) + [x];
  }

  /** Errors already collected never steer the loop: they are only carried along. */
  lemma {:induction false} ErrorsOnlyCarried(st: ImportState, extra: seq<RowError>, rows: seq<Row>, parse: Parser)
    ensures var plain := ImportFrom(st, rows, parse);
            ImportFrom(st.(errors := extra + st.errors), rows, parse) == plain.(errors := extra + plain.errors)
    decreases |rows|
  {
    if |rows| > 0 {
      StepCarriesErrors(st, extra, rows[0], parse);
      ErrorsOnlyCarried(Step(st, rows[0], parse), extra, rows[1..], parse);
    }
  }

  /**
   * A failing row is recorded and the batch goes on: the rest of the rows
   * are imported exactly as if the failing row were absent.
   */
  lemma FailingRowDoesNotAbort(store: Store, bad: Row, rest: seq<Row>, parse: Parser)
    requires ImportRow(store, bad, parse).Failed?
    ensures var withBad := ImportRows(store, [bad] + rest, parse);
            var without := ImportRows(store, rest, parse);
            && withBad.store == without.store
            && withBad.created == without.created
            && withBad.errors == [RowError(bad, ImportRow(store, bad, parse).reason)] + without.errors
  {
    var st := ImportState(store, 0, []);
    assert ([bad] + rest)[0] == bad && ([bad] + rest)[1..] == rest;
    var e := RowError(bad, ImportRow(store, bad, parse).reason);
    assert Step(st, bad, parse) == st.(errors := [e] + st.errors);
    ErrorsOnlyCarried(st, [e], rest, parse);
  }

  // ---------------------------------------------------------------------------
  // Re-importing
  // ---------------------------------------------------------------------------

  /** The row would not create a company against `store`. */
  predicate Settled(store: Store, row: Row, parse: Parser)
  {
    !ImportRow(store, row, parse).Created?
  }

  /** Once settled, a row stays settled as the store grows. */
  lemma SettledPersists(store: Store, store': Store, row: Row, parse: Parser)
    requires ExtendsStore(store, store')
    requires Settled(store, row, parse)
    ensures Settled(store', row, parse)
  {
    if ImportRow(store, row, parse).Skipped? {
      var name := Strip(Cell(row, "name", "").value);
      var i :| 0 <= i < |store| && store[i].name == name;
      assert store'[i] == store[i];
    }
  }

  /** A row is settled against the store its own step leaves. */
  lemma StepSettlesRow(st: ImportState, row: Row, parse: Parser)
    ensures Settled(Step(st, row, parse).store, row, parse)
  {
    if ImportRow(st.store, row, parse).Created? {
      var c := ImportRow(st.store, row, parse).company;
      NamesSnoc(st.store, c);
    }
  }

  /** After the loop, no row of the batch would create anything against the resulting store. */
  lemma {:induction false} AllRowsSettled(st: ImportState, rows: seq<Row>, parse: Parser)
    ensures forall k :: 0 <= k < |rows| ==> Settled(ImportFrom(st, rows, parse).store, rows[k], parse)
    decreases |rows|
  {
    if |rows| > 0 {
      var next := Step(st, rows[0], parse);
      var final := ImportFrom(next, rows[1..], parse).store;
      AllRowsSettled(next, rows[1..], parse);
      StepSettlesRow(st, rows[0], parse);
      SettledPersists(next.store, final, rows[0], parse);
      forall k | 1 <= k < |rows|
        ensures Settled(final, rows[k], parse)
      {
        assert rows[k] == rows[1..][k - 1];
      }
    }
  }

  /** Rows that are all settled change nothing and create nothing. */
  lemma {:induction false} SettledRowsCreateNothing(st: ImportState, rows: seq<Row>, parse: Parser)
    requires forall k :: 0 <= k < |rows| ==> Settled(st.store, rows[k], parse)
    ensures ImportFrom(st, rows, parse).store == st.store
    ensures ImportFrom(st, rows, parse).created == st.created
    decreases |rows|
  {
    if |rows| > 0 {
      var next := Step(st, rows[0], parse);
      assert next.store == st.store;
      SettledRowsCreateNothing(next, rows[1..], parse);
    }
  }

  /** Importing the same file twice creates nothing the second time. */
  lemma ReimportCreatesNothing(store: Store, rows: seq<Row>, parse: Parser)
    ensures var first := ImportRows(store, rows, parse);
            var second := ImportRows(first.store, rows, parse);
            second.created == 0 && second.store == first.store
  {
    var first := ImportRows(store, rows, parse);
    AllRowsSettled(ImportState(store, 0, []), rows, parse);
    SettledRowsCreateNothing(ImportState(first.store, 0, []), rows, parse);
  }

  // ---------------------------------------------------------------------------
  // Well-formed batches
  // ---------------------------------------------------------------------------

  /** Every cell present and the financials evaluable: the row cannot fail. */
  predicate WellFormedRow(row: Row, parse: Parser)
  {
    && Cell(row, "name", "").Some?
    && Cell(row, "description", "").Some?
    && Cell(row, "sector", "").Some?
    && RowFinancials(row, parse).Value?
  }

  function RowName(row: Row): string
  {
    Strip(Cell(row, "name", "").GetOr(""))
  }

  function RowNames(rows: seq<Row>): set<string>
  {
    set k | 0 <= k < |rows| :: RowName(rows[k])
  }

  /**
   * A well-formed batch reports no errors and creates one company per name
   * not stored before, however often that name repeats in the batch.
   */
  lemma WellFormedImportCount(store: Store, rows: seq<Row>, parse: Parser)
    requires UniqueNames(store)
    requires forall k :: 0 <= k < |rows| ==> WellFormedRow(rows[k], parse)
    ensures var r := ImportRows(store, rows, parse);
            && r.errors == []
            && Names(r.store) == Names(store) + RowNames(rows)
            && r.created == |RowNames(rows) - Names(store)|
  {
    var r := ImportRows(store, rows, parse);
    WellFormedNames(ImportState(store, 0, []), rows, parse);
    UniqueNamesCount(store);
    UniqueNamesCount(r.store);
    DisjointGrowth(Names(store), RowNames(rows));
  }

  lemma DisjointGrowth(a: set<string>, b: set<string>)
    ensures |a + b| == |a| + |b - a|
  {
    assert a + b == a + (b - a);
    assert a !! (b - a);
  }

  /** A well-formed row adds its stripped name to the stored names and no error. */
  lemma WellFormedStep(st: ImportState, row: Row, parse: Parser)
    requires WellFormedRow(row, parse)
    ensures Step(st, row, parse).errors == st.errors
    ensures Names(Step(st, row, parse).store) == Names(st.store) + {RowName(row)}
  {
    match ImportRow(st.store, row, parse)
    case Created(c) =>
      NamesSnoc(st.store, c);
    case Skipped =>
    case Failed(_) =>
  }

  lemma RowNamesCons(rows: seq<Row>)
    requires |rows| > 0
    ensures RowNames(rows) == {RowName(rows[0])} + RowNames(rows[1..])
  {
    forall n | n in RowNames(rows)
      ensures n in {RowName(rows[0])} + RowNames(rows[1..])
    {
      var k :| 0 <= k < |rows| && RowName(rows[k]) == n;
      if k > 0 {
        assert rows[1..][k - 1] == rows[k];
      }
    }
    forall n | n in RowNames(rows[1..])
      ensures n in RowNames(rows)
    {
      var k :| 0 <= k < |rows[1..]| && RowName(rows[1..][k]) == n;
      assert rows[k + 1] == rows[1..][k];
    }
  }

  lemma {:induction false} WellFormedNames(st: ImportState, rows: seq<Row>, parse: Parser)
    requires forall k :: 0 <= k < |rows| ==> WellFormedRow(rows[k], parse)
    ensures var r := ImportFrom(st, rows, parse);
            && r.errors == st.errors
            && Names(r.store) == Names(st.store) + RowNames(rows)
    decreases |rows|
  {
    if |rows| > 0 {
      var next := Step(st, rows[0], parse);
      WellFormedStep(st, rows[0], parse);
      assert forall k :: 0 <= k < |rows[1..]| ==> rows[1..][k] == rows[k + 1];
      WellFormedNames(next, rows[1..], parse);
      RowNamesCons(rows);
      var last := ImportFrom(next, rows[1..], parse).store;
      UnionRegroup(Names(st.store), Names(next.store), RowNames(rows[1..]), Names(last), RowName(rows[0]));
    } else {
      assert RowNames(rows) == {};
    }
  }

  /** The names after a step and the rest, regrouped as the names before and all the rows' names. */
  lemma UnionRegroup(before: set<string>, mid: set<string>, rest: set<string>, after: set<string>, n: string)
    requires mid == before + {n} && after == mid + rest
    ensures after == before + ({n} + rest)
  {
  }

  /** Rows whose stripped name and sector fit the declared lengths. */
  predicate RowWithinBounds(row: Row)
  {
    && |RowName(row)| <= MaxNameLength
    && (Cell(row, "sector", "").Some? ==> |Cell(row, "sector", "").value| <= MaxSectorLength)
  }

  /** The declared lengths are not checked on insert; they hold afterwards only if every row respects them. */
  lemma {:induction false} ImportKeepsBounds(st: ImportState, rows: seq<Row>, parse: Parser)
    requires AllWithinBounds(st.store)
    requires forall k :: 0 <= k < |rows| ==> RowWithinBounds(rows[k])
    ensures AllWithinBounds(ImportFrom(st, rows, parse).store)
    decreases |rows|
  {
    if |rows| > 0 {
      var next := Step(st, rows[0], parse);
      StepKeepsBounds(st, rows[0], parse);
      assert forall k :: 1 <= k < |rows| ==> rows[k] == rows[1..][k - 1];
      ImportKeepsBounds(next, rows[1..], parse);
    }
  }

  /** A row within the declared lengths adds only a company within them. */
  lemma StepKeepsBounds(st: ImportState, row: Row, parse: Parser)
    requires AllWithinBounds(st.store) && RowWithinBounds(row)
    ensures AllWithinBounds(Step(st, row, parse).store)
  {
    var next := Step(st, row, parse);
    if ImportRow(st.store, row, parse).Created? {
      var c := ImportRow(st.store, row, parse).company;
      assert next.store == st.store + [c];
      assert WithinDeclaredBounds(c);
    }
  }

  // ---------------------------------------------------------------------------
  // upload_companies_csv: the view
  // ---------------------------------------------------------------------------

  /**
   * The `file` part of the request: missing, or a named file whose rows
   * could be read, followed by the error that stopped reading, if one did
   * (undecodable bytes give no rows and an error).
   */
  datatype Upload = NoFile | File(filename: string, rows: seq<Row>, readError: Option<string>)

  /** A 400 response with its error text, or the 200 response with the import summary. */
  datatype UploadResponse = BadRequest(error: string) | Imported(message: string, errors: Option<seq<RowError>>)

  datatype UploadOutcome = UploadOutcome(response: UploadResponse, store: Store)

  /** The success message: its count is decimal digits that read back as the number of companies created. */
  function ImportedMessage(created: nat): (r: string)
    ensures IsPrefix("Successfully imported ", r) && EndsWith(r, " companies")
    ensures |r| > |"Successfully imported "| + |" companies"|
    ensures var digits := r[|"Successfully imported "|..|r| - |" companies"|];
            && (forall i :: 0 <= i < |digits| ==> IsDigit(digits[i]))
            && ParseDigits(digits) == created
  {
    var r := "Successfully imported " + NatToString(created) + " companies";
    assert r[|"Successfully imported "|..|r| - |" companies"|] == NatToString(created);
    NatToStringRoundTrip(created);
    r
  }

  /**
   * `upload_companies_csv`: the two guards answer 400 before any row is
   * read; otherwise every readable row is imported, and an error while
   * reading answers 400 with the rows before it already imported.
   */
  function UploadCompaniesCsv(store: Store, upload: Upload, parse: Parser): (out: UploadOutcome)
    ensures upload.NoFile? ==> out == UploadOutcome(BadRequest("No file provided"), store)
    ensures upload.File? && !EndsWith(upload.filename, ".csv") ==> out == UploadOutcome(BadRequest("File must be CSV format"), store)
    ensures ExtendsStore(store, out.store)
    ensures UniqueNames(store) ==> UniqueNames(out.store)
    ensures out.response.Imported? ==> && out.response.message == ImportedMessage(|out.store| - |store|)
                                       && out.response.errors != Some([])
    ensures upload.File? && EndsWith(upload.filename, ".csv") ==>
              var r := ImportRows(store, upload.rows, parse);
              && out.store == r.store
              && (out.response.Imported? <==> upload.readError.None?)
              && (upload.readError.Some? ==> out.response == BadRequest("Error processing CSV: " + upload.readError.value))
              && (out.response.Imported? ==> out.response.errors == if r.errors == [] then None else Some(r.errors))
  {
    match upload
    case NoFile => UploadOutcome(BadRequest("No file provided"), store)
    case File(filename, rows, readError) =>
      if !EndsWith(filename, ".csv") then UploadOutcome(BadRequest("File must be CSV format"), store)
      else ImportCsv(store, rows, readError, parse)
  }

  /**
   * The `try` block of `upload_companies_csv`: import the rows read, then
   * answer 400 if reading stopped on an error, or report the count and the
   * row errors.
   */
  function ImportCsv(store: Store, rows: seq<Row>, readError: Option<string>, parse: Parser): (out: UploadOutcome)
    ensures var r := ImportRows(store, rows, parse);
            && out.store == r.store
            && (out.response.Imported? <==> readError.None?)
            && (readError.Some? ==> out.response == BadRequest("Error processing CSV: " + readError.value))
            && (out.response.Imported? ==> out.response.errors == if |r.errors| == 0 then None else Some(r.errors))
    ensures out.response.Imported? ==> && out.response.message == ImportedMessage(|out.store| - |store|)
                                       && out.response.errors != Some([])
  {
    var r := ImportRows(store, rows, parse);
    var errors := if |r.errors| == 0 then None else Some(r.errors);
    var response := if readError.Some? then BadRequest("Error processing CSV: " + readError.value) else Imported(ImportedMessage(r.created), errors);
    UploadOutcome(response, r.store)
  }

  /** The count in the success message reads back as the number of companies added. */
  lemma ImportedCountReadsBack(store: Store, upload: Upload, parse: Parser)
    requires UploadCompaniesCsv(store, upload, parse).response.Imported?
    ensures var out := UploadCompaniesCsv(store, upload, parse);
            var digits := out.response.message[|"Successfully imported "|..|out.response.message| - |" companies"|];
            && (forall i :: 0 <= i < |digits| ==> IsDigit(digits[i]))
            && ParseDigits(digits) == |out.store| - |store|
  {
  }
}

=== FILE: wrappers.dfy ===
/** Optional values, used for Python's `None` and for lookups that may miss. */
module Wrappers {

  datatype Option<+T> = None | Some(value: T) {

    /** The wrapped value, or `default` when there is none (Python's `dict.get(key, default)`). */
    function GetOr(default: T): (r: T)
      ensures Some? ==> r == value
      ensures None? ==> r == default
    {
      match this
      case Some(v) => v
      case None => default
    }
  }
}
